=== FILE: README.md ===
# BlinkUp Cordova plugin (Android side) in Dafny

This project models the Android half of the Cordova BlinkUp plugin. A
host application uses the plugin to start the vendor's BlinkUp device
setup, to abort it, and to clear stored Wi-Fi data. The plugin reports
every outcome to one kept-open callback as a JSON envelope.

The model has three parts:

- **The result record** (`BlinkUpPluginResult`).
  - The record has a state (`started`, `completed` or `error`), a status code, an error type (`plugin` or `blinkup`), an error code, an optional message and optional device info.
  - Its setters are modelled.
  - Parsing the SDK's device-info object trims the device id and rewrites every `Z` of the date to `+0:00`.
  - The record is serialised to the JSON envelope, with numeric codes sent as decimal strings.
  - The Cordova status and the keep-callback flag of each delivery are modelled.
  - A host-side reading `Envelope.Decode` turns an envelope back into a message. It is the host's reading of the serialiser's output, and inverts it: `Results.RoundTrip` proves that the host reads back exactly the well-formed records, each as its meaning.
- **The command layer** (`BlinkUpPlugin.execute`).
  - Actions are matched ignoring case.
  - The four start arguments are read with org.json's coercions, and the API key is checked.
  - The abort and clear commands are modelled.
  - `presentBlinkUp` chooses the plan id from the generate-plan-id flag, the build's debug flag, the cached plan id and the developer plan id.
- **The completion activities**.
  - The clear completion reports 202 or 201 through a one-bit state machine.
  - The setup completion reports `started`/200. It then maps the SDK's success, error and timeout outcomes to envelopes and caches the reported plan id.

All process-wide state is one immutable record `Plugin.Global`:
- the cleared-cache flag
- the cached plan id
- the last start arguments
- the sequence of every envelope sent so far (the outbox)

Each handler is a function from one `Global` to the next. `Activities.Run` threads any sequence of commands and SDK callbacks through it. `Activities.RunKeepsOutboxReadable` proves that every envelope the plugin ever sends can be read by the host. It also proves that the host reads such an envelope as an error exactly when its Cordova status is ERROR.

Modules:

| Module | File | Contents |
|---|---|---|
| `Wrappers` | wrappers.dfy | `Option` |
| `Decimal` | decimal.dfy | Java's `"" + int` rendering and its parser |
| `Text` | text.dfy | Java `trim`; `replace("Z", "+0:00")`; `equalsIgnoreCase`; the alphanumeric class |
| `Json` | json.dfy | an org.json object as a map; `put` |
| `Codes` | codes.dfy | the status and error code tables |
| `Envelope` | envelope.dfy | states, error types, wire keys, and the host's reading of an envelope |
| `Results` | results.dfy | the result record, its setters and serialiser, and delivery |
| `Plugin` | plugin.dfy | global state, argument reading, the key check, `execute`, plan-id choice |
| `Activities` | activities.dfy | the completion activities and whole-plugin traces |

Where the repository's files disagree, the model follows the Java code:

- `INVALID_API_KEY` is 300 in the `ErrorCodes` enum (src/android/BlinkUpPlugin.java:68). The JavaScript test expects `"103"` (tests/tests.js:70). The model uses 300.
- The JavaScript wrapper sends action `startBlinkUp` with arguments (key, plan id, flag, timeout) (www/blinkup.js:28). The Java code accepts `invokeBlinkUp` and reads (key, plan id, timeout, flag) (src/android/BlinkUpPlugin.java:78-81,97). The model uses the Java action and order.
- The plan id is cached on every success, whatever the build: the caching code does not consult the debug flag (src/android/BlinkUpCompleteActivity.java:66-71), although `presentBlinkUp` ignores the cache in a debug build (src/android/BlinkUpPlugin.java:182-184). The model caches it on every success.
- The activities call `setState` with an enum and call `setDeviceInfoAsJson`, while the result class takes state strings and names the parser `setDeviceInfoFromJson`. The model has one state datatype, `Envelope.PluginState`, and one parser, `Results.SetDeviceInfoFromJson`. `BlinkUpPlugin.ERROR_JSON_ERROR` is taken to be `ErrorCodes.JSON_ERROR` (302).

## Model

| member | source | states |
|---|---|---|
| Codes.StatusCodeOf | src/android/BlinkUpPlugin.java:54-63 | a code names a status exactly when it is that status's code |
| Codes.ErrorCodeOf | src/android/BlinkUpPlugin.java:64-75 | a code names a plugin error exactly when it is that error's code |
| Codes.CodeTables | src/android/BlinkUpPlugin.java:54-75 | the status codes are exactly 0/200/201/202 and the error codes exactly 100/101/102/300/301/302; codes are injective; no plugin error uses the SDK's generic code 1 |
| Envelope.StateOfName | src/android/BlinkUpPluginResult.java:42-44 | only the three state names denote a state, and each denotes the state of that name |
| Envelope.ErrorTypeOfName | src/android/BlinkUpPluginResult.java:47-48 | only `blinkup` and `plugin` denote an error type |
| Envelope.Decode | tests/tests.js:64-71 | a readable envelope is an object with a `state`; it never reads as a progress message in the error state |
| Decimal.NatToString | src/android/BlinkUpPluginResult.java:155 | a code renders as a non-empty run of digits with no leading zero |
| Decimal.IntToString | src/android/BlinkUpPluginResult.java:178 | a code renders non-empty and starts with a digit exactly when it is not negative |
| Decimal.NatToStringRoundTrip | src/android/BlinkUpPluginResult.java:155 | the digits of a rendered natural number have its value |
| Decimal.IntToStringRoundTrip | src/android/BlinkUpPluginResult.java:155 | the host parses every rendered code back to itself |
| Decimal.LeadingZerosValue | src/android/BlinkUpPlugin.java:101 | zeros in front of a run of digits do not change its value |
| Decimal.NatToStringLength | src/android/BlinkUpPlugin.java:98 | a number below ten to the `k` renders in at most `k` digits |
| Decimal.IntToStringInjective | src/android/BlinkUpPluginResult.java:178 | different codes render as different strings |
| Text.TrimStart | src/android/BlinkUpPluginResult.java:113 | the result is a suffix of the input; every dropped char is at most a space, and the first kept char is not |
| Text.TrimEnd | src/android/BlinkUpPluginResult.java:113 | the result is a prefix of the input; every dropped char is at most a space, and the last kept char is not |
| Text.Trim | src/android/BlinkUpPluginResult.java:113 | the result is the infix of the input that remains once every leading and every trailing char at most a space is dropped: all dropped chars are at most a space, and neither end of the result is |
| Text.TrimOfUntrimmable | src/android/BlinkUpPlugin.java:194 | text with no char at most a space is its own trim |
| Text.TrimPadded | src/android/BlinkUpPlugin.java:101 | spaces on either side of text whose ends are not at most a space are exactly what trimming removes |
| Text.TrimIdempotent | src/android/BlinkUpPluginResult.java:113 | trimming twice is trimming once |
| Text.FoldCase | src/android/BlinkUpPlugin.java:97 | an upper-case ASCII letter folds to its lower case and every other ASCII char to itself; a non-ASCII char folds to ASCII exactly when it is dotted or dotless I (to `i`), long s (to `s`) or the Kelvin sign (to `k`) |
| Text.EqualsIgnoreCaseReflexive | src/android/BlinkUpPlugin.java:97-130 | every action name matches itself ignoring case |
| Text.AsciiEqualsIgnoreCase | src/android/BlinkUpPlugin.java:97 | between ASCII strings, the comparison ignoring case holds exactly when one spells the other with some letters in the other case |
| Text.CaseVariantMatches | src/android/BlinkUpPlugin.java:97 | a string spelt with some ASCII letters in the other case matches the original ignoring case |
| Text.ReplaceZ | src/android/BlinkUpPluginResult.java:116 | no `Z` is left; text without a `Z` is unchanged; the result is never shorter |
| Text.ReplaceZAppend | src/android/BlinkUpPluginResult.java:116 | the replacement distributes over concatenation |
| Text.ReplaceZTrailing | src/android/BlinkUpPluginResult.java:116 | a UTC date ending in `Z` ends in `+0:00` afterwards |
| Text.ReplaceZIdempotent | src/android/BlinkUpPluginResult.java:116 | replacing twice is replacing once |
| Json.Put | src/android/BlinkUpPluginResult.java:177-181 | a null value removes the key and any other value replaces it; no other key changes |
| Json.OptString | src/android/BlinkUpPluginResult.java:199-202 | a null string becomes a null value, any other string a JSON string |
| Results.SetState | src/android/BlinkUpPluginResult.java:91-96 | only the three state names are accepted; the state takes that name and nothing else changes |
| Results.SetStatusCode | src/android/BlinkUpPluginResult.java:97-99 | only the status code changes; an error envelope is unchanged by it; a readable progress envelope now reads with the new code and the same state and device info |
| Results.SetPluginError | src/android/BlinkUpPluginResult.java:100-104 | the state becomes error, the type plugin and the code `code`; status code, message and device info are kept; the host reads exactly that plugin error |
| Results.SetBlinkUpError | src/android/BlinkUpPluginResult.java:105-110 | the state becomes error, the type blinkup, the code 1 and the message `msg`; the host reads exactly that SDK error |
| Results.ParseFailed | src/android/BlinkUpPluginResult.java:118-122 | a failed parse leaves a plugin error 302 and sends that record at once |
| Results.SetDeviceInfoFromJson | src/android/BlinkUpPluginResult.java:111-123 | with all four keys: device id trimmed, plan id and agent URL copied, every `Z` of the date replaced, device info marked, nothing sent. With a key missing: plugin error 302, device-info flag and status code kept, one envelope sent. A present `impee_id` is always stored trimmed. Well-formedness is kept |
| Results.ParseFailureIsJsonError | src/android/BlinkUpPluginResult.java:118-122 | a failed parse sends one envelope, and it reads as plugin error 302 |
| Results.ErrorJson | src/android/BlinkUpPluginResult.java:173-190 | the error object holds `errorType` and `errorCode`, plus `errorMsg` only for an SDK error with a message |
| Results.ResultJson | src/android/BlinkUpPluginResult.java:136-168 | the envelope is a JSON object |
| Results.EnvelopeKeys | src/android/BlinkUpPluginResult.java:149-189 | an error envelope has exactly `state` and `error` and never `statusCode`; any other state has `state`, `statusCode`, and `deviceInfo` exactly when device info was parsed |
| Results.Send | src/android/BlinkUpPluginResult.java:140-167 | the callback is kept; the status is ERROR exactly in the error state; the host reads the envelope exactly when the record is well formed, and reads it as the record's meaning |
| Results.SendReadable | src/android/BlinkUpPluginResult.java:136-168 | a well-formed record is sent as a readable envelope |
| Results.SendPluginError | src/android/BlinkUpPluginResult.java:125-130 | a fresh record with plugin error `code` is sent as exactly that error, with ERROR status |
| Results.ErrorJsonReadsBack | src/android/BlinkUpPluginResult.java:173-190 | the host reads the error object back as its type, code and (SDK errors only) message |
| Results.DeviceInfoJson | src/android/BlinkUpPluginResult.java:195-210 | the device-info object holds one key per field that is set and none for a field that is not, because `put` of null drops the key |
| Results.DeviceInfoJsonReadsBack | src/android/BlinkUpPluginResult.java:195-210 | the host reads the device-info object back exactly when all four fields are set |
| Results.ErrorRoundTrip | src/android/BlinkUpPluginResult.java:149-152 | an error envelope is read back exactly when the error type is set, as its meaning |
| Results.ProgressRoundTrip | src/android/BlinkUpPluginResult.java:153-159 | a progress envelope is read back exactly when its device info is complete, as its meaning |
| Results.RoundTrip | src/android/BlinkUpPluginResult.java:136-210 | the host reads back exactly the well-formed records, each as its meaning |
| Results.PluginErrorRecordSent | src/android/BlinkUpPluginResult.java:136-168 | any record in the error state with the plugin type is sent as that plugin error |
| Plugin.Wrap32 | src/android/BlinkUpPlugin.java:101 | a long narrowed to an int is in range, congruent modulo 2^32, and unchanged when it fits |
| Plugin.Saturate32 | src/android/BlinkUpPlugin.java:101 | a numeric string's value narrowed to an int clamps to the int range |
| Plugin.IntegralText | src/android/BlinkUpPlugin.java:101 | text is read as an integer exactly when it is an optional sign followed by at least one decimal digit |
| Plugin.IntegralTextRoundTrip | src/android/BlinkUpPlugin.java:101 | every integer's decimal text, and a non-negative one's text with a `+`, is read back as that integer |
| Plugin.IntegralTextOfDigits | src/android/BlinkUpPlugin.java:101 | a run of digits, bare or after `+` or `-`, is read as its value with that sign |
| Plugin.IntegralTextLeadingZeros | src/android/BlinkUpPlugin.java:101 | digits with any number of leading zeros, bare or after `+` or `-`, are read as their value with that sign |
| Plugin.GetString | src/android/BlinkUpPlugin.java:98-99 | an argument is read as text exactly when the index is in range: a string as itself, a number as its decimal text, a boolean as `true` or `false`, and JSON null as `null` |
| Plugin.NonTextKeyRejected | src/android/BlinkUpPlugin.java:96-111 | a key sent as a number, a boolean or JSON null is read as its text, which is never a well-formed key, so the start command sends error 300 |
| Plugin.GetInt | src/android/BlinkUpPlugin.java:101 | a timeout is read only from a number or a string and always fits an int; a number is read narrowed to its low 32 bits; a string is accepted exactly when its trim is an optionally signed run of digits, and is then read as that integer clamped to the int range |
| Plugin.GetIntOfDecimalText | src/android/BlinkUpPlugin.java:101 | an int sent as its decimal text is read as itself |
| Plugin.GetIntOfPaddedText | src/android/BlinkUpPlugin.java:101 | any integer sent as decimal text with spaces on either side is read as its value clamped to the int range |
| Plugin.GetIntOfZeroLedText | src/android/BlinkUpPlugin.java:101 | digits with leading zeros, bare or after `+` or `-`, sent as a string, are read as their signed value whenever it fits an int |
| Plugin.GetBoolean | src/android/BlinkUpPlugin.java:102 | a flag is read only from a boolean or a string; a boolean reads as itself; a string is accepted exactly when it is `true` or `false` ignoring case, and reads as true exactly when it is `true` |
| Plugin.GetBooleanAnyCase | src/android/BlinkUpPlugin.java:102 | `true` with any of its letters in the other case reads as true |
| Plugin.SendPluginErrorToCallback | src/android/BlinkUpPlugin.java:206-211 | exactly one envelope is appended, and it reads as plugin error `e` |
| Plugin.ApiKeyFormatValid | src/android/BlinkUpPlugin.java:193-200 | a key is valid exactly when it has 32 chars, all ASCII letters or digits |
| Plugin.ApiKeyLength | src/android/BlinkUpPlugin.java:193-200 | a valid key has length 32 and nothing to trim |
| Plugin.Reject | src/android/BlinkUpPlugin.java:103-112 | a refused start appends one plugin error, returns false and leaves no UI work |
| Plugin.InvokeBlinkUp | src/android/BlinkUpPlugin.java:97-121 | unreadable arguments: one error 100, false returned, no UI work. Readable arguments are stored as read. An invalid key: one error 300, false returned. A valid key: true returned, setup presented, nothing sent. The cache and its flag are untouched |
| Plugin.AbortBlinkUp | src/android/BlinkUpPlugin.java:124-127 | polling is cancelled and exactly one error 102 is sent, whatever the state; true is returned |
| Plugin.ClearBlinkUpData | src/android/BlinkUpPlugin.java:130-145 | the cached plan id becomes null and the cleared-cache flag is raised; nothing is sent; true is returned |
| Plugin.Execute | src/android/BlinkUpPlugin.java:87-148 | a name matching an action ignoring case runs that action's handler; at most one envelope is sent; false is returned only for a refused start, which sent error 100 or 300; an unknown action changes nothing and returns true |
| Plugin.ActionNamesDistinct | src/android/BlinkUpPlugin.java:97-130 | no name matches two of the three actions ignoring case |
| Plugin.ExecuteIgnoresCase | src/android/BlinkUpPlugin.java:97-130 | an action name with any letters in the other case runs that action; an ASCII name is known exactly when it is such a spelling of one of the three |
| Plugin.PresentBlinkUp | src/android/BlinkUpPlugin.java:175-186 | the plan id is left to the SDK exactly when it is to generate one; otherwise a debug build sets the developer plan id and a release build the cached one |
| Plugin.OnServerError | src/android/BlinkUpPlugin.java:167-172 | a failed key verification sends exactly one error 301 |
| Plugin.ClearThenStartUsesNoCachedPlanId | src/android/BlinkUpPlugin.java:175-179 | after a clear, a release-build start that does not generate a plan id sets it to null |
| Activities.ClearComplete | src/android/ClearCompleteActivity.java:32-51 | exactly one `completed` envelope is sent: 202 if the flag was raised, else 201; the flag is lowered afterwards |
| Activities.ClearThenCompleteReports202 | src/android/ClearCompleteActivity.java:40-43 | a clear command and its completion report 202 and leave no cached plan id |
| Activities.SecondClearCompletionReports201 | src/android/ClearCompleteActivity.java:40-46 | two completions without a clear command between them: the second reports 201 |
| Activities.BlinkUpCompleteCreated | src/android/BlinkUpCompleteActivity.java:40-51 | one `started` envelope with 200 is sent, and the status polling gets the stored timeout |
| Activities.OnSuccess | src/android/BlinkUpCompleteActivity.java:59-79 | envelopes are only appended; the cached plan id becomes the reported `plan_id`, and is kept when that key is missing |
| Activities.OnSuccessReportsDevice | src/android/BlinkUpCompleteActivity.java:59-64 | with all four keys exactly one envelope is sent, and it reads as `completed`, 0, with the device info as reported |
| Activities.JsonErrorDeliveries | src/android/BlinkUpPluginResult.java:118-122 | with a key missing, every envelope of a successful poll is error 302: two, or three when `plan_id` is missing |
| Activities.OnSuccessReportsJsonError | src/android/BlinkUpCompleteActivity.java:63-78 | with a key missing, only error 302 is sent: twice, or three times when `plan_id` is missing |
| Activities.OnSuccessSendsReadable | src/android/BlinkUpCompleteActivity.java:59-79 | whatever the payload, every envelope of a successful poll can be read |
| Activities.OnError | src/android/BlinkUpCompleteActivity.java:84-89 | exactly one envelope is sent, and it reads as an SDK error with code 1 and the SDK's message |
| Activities.OnTimeout | src/android/BlinkUpCompleteActivity.java:94-99 | exactly one envelope is sent, and it reads as error 101 |
| Activities.StepSendsReadable | src/android/BlinkUpPlugin.java:87-148 | every command or callback only appends envelopes, and each can be read |
| Activities.PluginOnlySendsReadable | src/android/BlinkUpPlugin.java:42-52 | from the fields of a fresh plugin instance, with any plan id an earlier run left cached, every envelope of every run can be read by the host |
| Activities.RunKeepsOutboxReadable | src/android/BlinkUpPluginResult.java:136-168 | along any trace of events, sent envelopes are never altered and every one can be read, with ERROR status exactly for errors |
| Activities.AbortSendsOneCancel | src/android/BlinkUpPlugin.java:124-127 | an abort command sends exactly one error 102 and cancels polling |

## Left out

- The vendor SDK (`BlinkupController`) is closed source. Its token acquisition, Wi-Fi selection, polling, device clear and polling cancellation become events (`Activities.Event`) or effects (`Plugin.Effect`). The SDK's three poll outcomes are the `Activities.TokenStatus` alternatives.
- `runOnUiThread`, activity lifecycle (`finish`) and intents: threading and UI plumbing. The work handed to the UI thread is returned as an `Effect`, and its completion arrives as a later event.
- Cordova's `CallbackContext` and `PluginResult` are modelled as appending a `Delivery` to the outbox. The identity of the callback context is not tracked, because every delivery goes to the last context that `execute` stored.
- JSON text rendering (`toString`): an envelope is a JSON tree, and member order has no meaning in JSON.
- The `JSONException` catch branches around `put` are not modelled. `put` with string keys and values cannot throw, so they are unreachable; the serialiser is total.
- `SharedPreferences` persistence is modelled as the single `cachedPlanId` field. `src/android/util/PreferencesHelper.java` is not used by the plugin and is not part of this model.
- Logging, including the token-acquire callback, which only logs.
- The build's `DEBUG` flag is a parameter of `Plugin.PresentBlinkUp`. The `setState` debug assertion is the precondition of `Results.SetState`.
- `www/blinkup.js`, `scripts/android/*.js` and the iOS headers are not part of this model: they are wrappers, build-time file edits and declarations.
- Plugin.GetInt: reads only integral numbers, and strings whose trim is an optionally signed run of decimal digits. For any other string that `Double.parseDouble` accepts (a fraction such as `"1500.5"`, an exponent, `NaN`, `Infinity`, a hexadecimal float, a `d` or `f` suffix) the model reads nothing, so `invokeBlinkUp` answers with error 100, whereas Android reads the truncated value (1500 for `"1500.5"`) and starts setup. Double arguments are not modelled either, for the same reason: floating point is outside the model.
- Plugin.Arg: the argument array's elements are strings, integral numbers in the Java long range, booleans and null. Numbers outside the long range, which org.json holds as doubles (and `getInt` then saturates and `getString` renders in exponent form), are not modelled, and neither are nested arrays and objects, which the start command never reads.
- Activities.OnError: the SDK's error message is always a string. A null message, which would drop `errorMsg`, is not modelled.
- An abort does not stop a late SDK outcome from being reported. The model reproduces this, since an `Activities.StatusArrived` event may follow an abort command.
- `timeoutMs` is only handed to the SDK (`Activities.Created.pollTimeoutMs`), and no timing is modelled.

=== FILE: activities.dfy ===
/**
  The two completion activities, the SDK outcomes they report, and the
  plugin as a whole: a sequence of events threaded through one state.
 */
module Activities {
  import opened Wrappers
  import opened Text
  import opened Codes
  import opened Envelope
  import opened Results
  import opened Plugin

  /**
    The device clear finished: report `completed` with 202 if a clear
    command raised the cleared-cache flag (and lower it), else 201.
   */
  function ClearComplete(g: Global): (g': Global)
    ensures |g'.outbox| == |g.outbox| + 1 && g'.outbox[..|g.outbox|] == g.outbox
    ensures IsProgress(Last(g'.outbox), Completed,
                       if g.clearedCache then ClearWifiAndCacheComplete.Code() else ClearWifiComplete.Code())
    ensures !g'.clearedCache
    ensures g' == g.(clearedCache := false, outbox := g'.outbox)
  {
    var r := SetState(NewResult, Completed.Name());
    if g.clearedCache then
      Emit(g.(clearedCache := false), Send(SetStatusCode(r, ClearWifiAndCacheComplete.Code())))
    else
      Emit(g, Send(SetStatusCode(r, ClearWifiComplete.Code())))
  }

  /** The state after the setup activity starts, and the timeout it hands the SDK's status polling. */
  datatype Created = Created(g: Global, pollTimeoutMs: int)

  /** The setup finished on the device: start polling for its status and report `started` with 200. */
  function BlinkUpCompleteCreated(g: Global): (c: Created)
    ensures c.pollTimeoutMs == g.timeoutMs
    ensures |c.g.outbox| == |g.outbox| + 1 && c.g.outbox[..|g.outbox|] == g.outbox
    ensures IsProgress(Last(c.g.outbox), Started, GatheringInfo.Code())
    ensures c.g == g.(outbox := c.g.outbox)
  {
    var r := SetStatusCode(SetState(NewResult, Started.Name()), GatheringInfo.Code());
    Created(Emit(g, Send(r)), g.timeoutMs)
  }

  /** The device info a successful poll reports, as the host reads it. */
  function ReportedInfo(info: map<string, string>): DeviceInfo
    requires HasAllDeviceKeys(info)
  {
    DeviceInfo(Trim(info[SdkImpeeIdKey]), info[SdkPlanIdKey], info[SdkAgentUrlKey], ReplaceZ(info[SdkClaimedAtKey]))
  }

  /** The record a successful poll is reported with, before its device info is read. */
  const SuccessRecord: PluginResult := SetStatusCode(SetState(NewResult, Completed.Name()), DeviceConnected.Code())

  /**
    The envelopes a successful poll sends, in order: whatever the parse
    sent, the result itself, and a JSON_ERROR when the plan id to cache is
    missing.
   */
  function SuccessDeliveries(info: map<string, string>): seq<Delivery> {
    var p := SetDeviceInfoFromJson(SuccessRecord, info);
    p.sent + [Send(p.result)] + (if SdkPlanIdKey in info then [] else [SendPluginError(JsonError.Code())])
  }

  /**
    The SDK reports the device: send `completed` with 0 and its info, then
    cache its plan id; a missing plan id is reported as JSON_ERROR instead.
   */
  function OnSuccess(g: Global, info: map<string, string>): (g': Global)
    ensures g.outbox <= g'.outbox
    ensures SdkPlanIdKey in info ==> g'.cachedPlanId == Some(info[SdkPlanIdKey])
    ensures SdkPlanIdKey !in info ==> g'.cachedPlanId == g.cachedPlanId
    ensures g' == g.(outbox := g'.outbox, cachedPlanId := g'.cachedPlanId)
  {
    g.(outbox := g.outbox + SuccessDeliveries(info),
       cachedPlanId := if SdkPlanIdKey in info then Some(info[SdkPlanIdKey]) else g.cachedPlanId)
  }

  /** With all four keys, exactly one envelope is sent: `completed`, 0, and the device info as reported. */
  lemma OnSuccessReportsDevice(g: Global, info: map<string, string>)
    requires HasAllDeviceKeys(info)
    ensures var g' := OnSuccess(g, info);
            && g'.outbox == g.outbox + [Send(SetDeviceInfoFromJson(SuccessRecord, info).result)]
            && Last(g'.outbox).status == StatusOk && Last(g'.outbox).keepCallback
            && Decode(Last(g'.outbox).message) == Some(Progress(Completed, DeviceConnected.Code(), Some(ReportedInfo(info))))
  {
    var p := SetDeviceInfoFromJson(SuccessRecord, info);
    assert Wellformed(p.result);
    assert View(p.result) == Progress(Completed, DeviceConnected.Code(), Some(ReportedInfo(info)));
  }

  /** With a key missing, every envelope of a successful poll is JSON_ERROR: two of them, or three without a plan id. */
  lemma JsonErrorDeliveries(info: map<string, string>)
    requires !HasAllDeviceKeys(info)
    ensures var ds := SuccessDeliveries(info);
            && |ds| == (if SdkPlanIdKey in info then 2 else 3)
            && forall j :: 0 <= j < |ds| ==> IsPluginError(ds[j], JsonError.Code())
  {
    var p := SetDeviceInfoFromJson(SuccessRecord, info);
    var d := Send(p.result);
    ParseFailureIsJsonError(SuccessRecord, info);
    var e := SendPluginError(JsonError.Code());
    var tail := if SdkPlanIdKey in info then [] else [e];
    var ds := [d, d] + tail;
    assert p.sent + [d] == [d, d];
    assert SuccessDeliveries(info) == p.sent + [d] + tail;
    AllPluginErrors(ds, d, e, SdkPlanIdKey !in info, JsonError.Code());
  }

  lemma AllPluginErrors(ds: seq<Delivery>, d: Delivery, e: Delivery, third: bool, code: int)
    requires IsPluginError(d, code) && IsPluginError(e, code)
    requires ds == [d, d] + (if third then [e] else [])
    ensures forall j :: 0 <= j < |ds| ==> IsPluginError(ds[j], code)
  {
  }

  /**
    A missing key reports JSON_ERROR from inside the parse and again when
    the errored record is sent; a missing plan id reports it a third time.
   */
  lemma OnSuccessReportsJsonError(g: Global, info: map<string, string>)
    requires !HasAllDeviceKeys(info)
    ensures var g' := OnSuccess(g, info);
            && |g'.outbox| == |g.outbox| + (if SdkPlanIdKey in info then 2 else 3)
            && forall i :: |g.outbox| <= i < |g'.outbox| ==> IsPluginError(g'.outbox[i], JsonError.Code())
  {
    JsonErrorDeliveries(info);
    var ds := SuccessDeliveries(info);
    var g' := OnSuccess(g, info);
    assert g'.outbox == g.outbox + ds;
    forall i | |g.outbox| <= i < |g'.outbox|
      ensures IsPluginError(g'.outbox[i], JsonError.Code())
    {
      assert g'.outbox[i] == ds[i - |g.outbox|];
    }
  }

  /** Whatever the payload, every envelope a successful poll sends can be read. */
  lemma OnSuccessSendsReadable(g: Global, info: map<string, string>)
    ensures SendsReadable(g, OnSuccess(g, info))
  {
    var g' := OnSuccess(g, info);
    if HasAllDeviceKeys(info) {
      OnSuccessReportsDevice(g, info);
      assert Readable(Last(g'.outbox));
      SendsOneReadable(g, g');
    } else {
      OnSuccessReportsJsonError(g, info);
      forall i | |g.outbox| <= i < |g'.outbox|
        ensures Readable(g'.outbox[i])
      {
        PluginErrorReadable(g'.outbox[i], JsonError.Code());
      }
    }
  }

  /** The SDK reports an error: an SDK error with code 1 and its message. */
  function OnError(g: Global, msg: string): (g': Global)
    ensures |g'.outbox| == |g.outbox| + 1 && g'.outbox[..|g.outbox|] == g.outbox
    ensures Last(g'.outbox).status == StatusError && Last(g'.outbox).keepCallback
    ensures Decode(Last(g'.outbox).message) == Some(Failure(SdkError, SdkErrorCode, Some(msg)))
    ensures g' == g.(outbox := g'.outbox)
  {
    Emit(g, Send(SetBlinkUpError(SetState(NewResult, Error.Name()), msg)))
  }

  /** The SDK's polling timed out: PROCESS_TIMED_OUT. */
  function OnTimeout(g: Global): (g': Global)
    ensures |g'.outbox| == |g.outbox| + 1 && g'.outbox[..|g.outbox|] == g.outbox
    ensures IsPluginError(Last(g'.outbox), ProcessTimedOut.Code())
    ensures g' == g.(outbox := g'.outbox)
  {
    Emit(g, Send(SetPluginError(SetState(NewResult, Error.Name()), ProcessTimedOut.Code())))
  }

  /** The three outcomes of the SDK's status polling. */
  datatype TokenStatus = TokenSuccess(info: map<string, string>) | TokenError(msg: string) | TokenTimeout

  function OnTokenStatus(g: Global, s: TokenStatus): Global {
    match s
    case TokenSuccess(info) => OnSuccess(g, info)
    case TokenError(msg) => OnError(g, msg)
    case TokenTimeout => OnTimeout(g)
  }

  /** What can happen to the plugin: a command from the host, or a callback from the SDK or the UI. */
  datatype Event =
    | Command(action: string, data: seq<Arg>)
    | ServerError
    | ClearFinished
    | SetupFinished
    | StatusArrived(status: TokenStatus)

  function Step(g: Global, e: Event): Global {
    match e
    case Command(action, data) => Execute(g, action, data).g
    case ServerError => OnServerError(g)
    case ClearFinished => ClearComplete(g)
    case SetupFinished => BlinkUpCompleteCreated(g).g
    case StatusArrived(s) => OnTokenStatus(g, s)
  }

  function Run(g: Global, events: seq<Event>): Global
    decreases |events|
  {
    if |events| == 0 then g else Run(Step(g, events[0]), events[1..])
  }

  predicate OutboxReadable(g: Global) {
    forall i :: 0 <= i < |g.outbox| ==> Readable(g.outbox[i])
  }

  lemma ExtendReadable(g: Global, g': Global)
    requires OutboxReadable(g) && SendsReadable(g, g')
    ensures OutboxReadable(g')
  {
    forall i | 0 <= i < |g'.outbox|
      ensures Readable(g'.outbox[i])
    {
      if i < |g.outbox| {
        assert g'.outbox[i] == g.outbox[i];
      }
    }
  }

  lemma PluginErrorReadable(d: Delivery, code: int)
    requires IsPluginError(d, code)
    ensures Readable(d)
  {
  }

  lemma ProgressReadable(d: Delivery, state: PluginState, code: int)
    requires IsProgress(d, state, code)
    ensures Readable(d)
  {
  }

  /** One appended delivery, readable. */
  lemma SendsOneReadable(g: Global, g': Global)
    requires |g'.outbox| == |g.outbox| + 1 && g'.outbox[..|g.outbox|] == g.outbox
    requires Readable(Last(g'.outbox))
    ensures SendsReadable(g, g')
  {
  }

  lemma StepSendsReadable(g: Global, e: Event)
    ensures SendsReadable(g, Step(g, e))
  {
    var g' := Step(g, e);
    match e
    case Command(action, data) =>
      var res := Execute(g, action, data);
      if |g'.outbox| == |g.outbox| + 1 {
        if EqualsIgnoreCase(action, InvokeAction) {
          if !ArgsWellTyped(data) {
            PluginErrorReadable(Last(g'.outbox), InvalidArguments.Code());
          } else {
            PluginErrorReadable(Last(g'.outbox), InvalidApiKey.Code());
          }
        } else {
          PluginErrorReadable(Last(g'.outbox), CancelledByUser.Code());
        }
        SendsOneReadable(g, g');
      }
    case ServerError =>
      PluginErrorReadable(Last(g'.outbox), VerifyApiKeyFail.Code());
      SendsOneReadable(g, g');
    case ClearFinished =>
      ProgressReadable(Last(g'.outbox), Completed,
                       if g.clearedCache then ClearWifiAndCacheComplete.Code() else ClearWifiComplete.Code());
      SendsOneReadable(g, g');
    case SetupFinished =>
      ProgressReadable(Last(g'.outbox), Started, GatheringInfo.Code());
      SendsOneReadable(g, g');
    case StatusArrived(s) =>
      match s
      case TokenSuccess(info) =>
        OnSuccessSendsReadable(g, info);
      case TokenError(msg) =>
        SendsOneReadable(g, g');
      case TokenTimeout =>
        PluginErrorReadable(Last(g'.outbox), ProcessTimedOut.Code());
        SendsOneReadable(g, g');
  }

  /** Every envelope the plugin ever sends can be read by the host, and sent envelopes are never altered. */
  lemma {:induction false} RunKeepsOutboxReadable(g: Global, events: seq<Event>)
    requires OutboxReadable(g)
    ensures OutboxReadable(Run(g, events))
    ensures g.outbox <= Run(g, events).outbox
    decreases |events|
  {
    if |events| > 0 {
      var g1 := Step(g, events[0]);
      StepSendsReadable(g, events[0]);
      ExtendReadable(g, g1);
      RunKeepsOutboxReadable(g1, events[1..]);
    }
  }

  /**
    From the state a plugin instance starts in (no cleared cache, a
    30-second timeout, plan-id generation off, nothing sent), with any plan
    id an earlier run left in the preferences, every envelope of every run
    can be read by the host.
   */
  lemma PluginOnlySendsReadable(cache: Option<string>, events: seq<Event>)
    ensures OutboxReadable(Run(Initial.(cachedPlanId := cache), events))
  {
    RunKeepsOutboxReadable(Initial.(cachedPlanId := cache), events);
  }

  /** A clear command followed by its completion reports 202, and leaves no cached plan id and the flag lowered. */
  lemma ClearThenCompleteReports202(g: Global)
    ensures var g' := ClearComplete(ClearBlinkUpData(g).g);
            && IsProgress(Last(g'.outbox), Completed, ClearWifiAndCacheComplete.Code())
            && g'.cachedPlanId == None && !g'.clearedCache
  {
  }

  /** Two completions with no clear command between them: the second always reports 201. */
  lemma SecondClearCompletionReports201(g: Global)
    ensures var g' := ClearComplete(ClearComplete(g));
            && |g'.outbox| == |g.outbox| + 2
            && IsProgress(g'.outbox[|g.outbox|], Completed,
                          if g.clearedCache then ClearWifiAndCacheComplete.Code() else ClearWifiComplete.Code())
            && IsProgress(Last(g'.outbox), Completed, ClearWifiComplete.Code())
  {
    var g1 := ClearComplete(g);
    var g2 := ClearComplete(g1);
    assert g2.outbox[..|g1.outbox|] == g1.outbox;
    assert g2.outbox[|g.outbox|] == g1.outbox[|g.outbox|];
  }

  /** An abort sends exactly one CANCELLED_BY_USER whatever state the plugin is in. */
  lemma AbortSendsOneCancel(g: Global, data: seq<Arg>)
    ensures var res := Execute(g, AbortAction, data);
            && res.returned && res.effect == CancelPolling
            && |res.g.outbox| == |g.outbox| + 1
            && IsPluginError(Last(res.g.outbox), CancelledByUser.Code())
  {
    EqualsIgnoreCaseReflexive(AbortAction);
  }
}

=== FILE: codes.dfy ===
/** The plugin's fixed status and error code tables. */
module Codes {
  import opened Wrappers

  /** Codes of the `started` and `completed` envelopes. */
  datatype StatusCode = DeviceConnected | GatheringInfo | ClearWifiComplete | ClearWifiAndCacheComplete {
    function Code(): int {
      match this
      case DeviceConnected => 0
      case GatheringInfo => 200
      case ClearWifiComplete => 201
      case ClearWifiAndCacheComplete => 202
    }
  }

  /** Codes of plugin errors. */
  datatype ErrorCode = InvalidArguments | ProcessTimedOut | CancelledByUser | InvalidApiKey | VerifyApiKeyFail | JsonError {
    function Code(): int {
      match this
      case InvalidArguments => 100
      case ProcessTimedOut => 101
      case CancelledByUser => 102
      case InvalidApiKey => 300
      case VerifyApiKeyFail => 301
      case JsonError => 302
    }
  }

  /** The one code every error reported by the vendor SDK carries. */
  const SdkErrorCode: int := 1

  /** The status a host reads back from a code, if the code is in the table. */
  function StatusCodeOf(n: int): (r: Option<StatusCode>)
    ensures r.Some? ==> r.value.Code() == n
    ensures forall c: StatusCode :: c.Code() == n ==> r == Some(c)
  {
    if n == 0 then Some(DeviceConnected)
    else if n == 200 then Some(GatheringInfo)
    else if n == 201 then Some(ClearWifiComplete)
    else if n == 202 then Some(ClearWifiAndCacheComplete)
    else None
  }

  /** The plugin error a host reads back from a code, if the code is in the table. */
  function ErrorCodeOf(n: int): (r: Option<ErrorCode>)
    ensures r.Some? ==> r.value.Code() == n
    ensures forall e: ErrorCode :: e.Code() == n ==> r == Some(e)
  {
    if n == 100 then Some(InvalidArguments)
    else if n == 101 then Some(ProcessTimedOut)
    else if n == 102 then Some(CancelledByUser)
    else if n == 300 then Some(InvalidApiKey)
    else if n == 301 then Some(VerifyApiKeyFail)
    else if n == 302 then Some(JsonError)
    else None
  }

  /**
    The tables are exactly 0/200/201/202 and 100/101/102/300/301/302, each
    code names one entry, and no plugin error shares the SDK's generic code.
   */
  lemma CodeTables()
    ensures forall n :: StatusCodeOf(n).Some? <==> n in {0, 200, 201, 202}
    ensures forall n :: ErrorCodeOf(n).Some? <==> n in {100, 101, 102, 300, 301, 302}
    ensures forall c: StatusCode, d: StatusCode :: c.Code() == d.Code() ==> c == d
    ensures forall e: ErrorCode, f: ErrorCode :: e.Code() == f.Code() ==> e == f
    ensures forall e: ErrorCode :: e.Code() != SdkErrorCode
  {
  }
}

=== FILE: decimal.dfy ===
/**
  Decimal rendering of integers, as Java's `"" + n` produces it, and the
  parser a reader of the rendered text uses to recover the number.
 */
module Decimal {
  import opened Wrappers

  predicate IsDigit(c: char) {
    '0' <= c <= '9'
  }

  predicate AllDigits(s: string) {
    forall i :: 0 <= i < |s| ==> IsDigit(s[i])
  }

  function DigitChar(d: nat): (c: char)
    requires d < 10
    ensures IsDigit(c)
  {
    (('0' as int) + d) as char
  }

  function DigitValue(c: char): (d: nat)
    requires IsDigit(c)
    ensures d < 10
  {
    (c as int) - ('0' as int)
  }

  /** The digits of `n`, most significant first, without leading zeros. */
  function NatToString(n: nat): (s: string)
    ensures |s| > 0 && AllDigits(s)
    ensures s[0] == '0' ==> n == 0
  {
    if n < 10 then [DigitChar(n)] else NatToString(n / 10) + [DigitChar(n % 10)]
  }

  /** The value of a run of decimal digits. */
  function DigitsValue(s: string): nat
    requires AllDigits(s)
  {
    if |s| == 0 then 0 else DigitsValue(s[..|s| - 1]) * 10 + DigitValue(s[|s| - 1])
  }

  /** Java's string concatenation of an int: an optional minus sign, then the digits. */
  function IntToString(i: int): (s: string)
    ensures |s| > 0
    ensures i >= 0 <==> IsDigit(s[0])
  {
    if i < 0 then "-" + NatToString(-i) else NatToString(i)
  }

  /** Reads an optional minus sign followed by at least one digit. */
  function ParseInt(s: string): (r: Option<int>)
    ensures r.Some? ==> |s| > 0
  {
    if |s| > 1 && s[0] == '-' && AllDigits(s[1..]) then Some(-(DigitsValue(s[1..]) as int))
    else if |s| > 0 && AllDigits(s) then Some(DigitsValue(s))
    else None
  }

  /** Ten to the power `k`. */
  function Pow10(k: nat): (p: nat)
    ensures p > 0
  {
    if k == 0 then 1 else 10 * Pow10(k - 1)
  }

  /** A number below `10^k` renders in at most `k` digits. */
  lemma {:induction false} NatToStringLength(n: nat, k: nat)
    requires 0 < k && n < Pow10(k)
    ensures |NatToString(n)| <= k
    decreases k
  {
    if n >= 10 {
      assert n / 10 < Pow10(k - 1);
      NatToStringLength(n / 10, k - 1);
    }
  }

  lemma Pow10Of19()
    ensures Pow10(19) == 10_000_000_000_000_000_000
  {
    assert Pow10(4) == 10_000;
    assert Pow10(9) == 1_000_000_000;
    assert Pow10(14) == 100_000_000_000_000;
  }

  /** `z` zero digits. */
  function Zeros(z: nat): (s: string)
    ensures |s| == z && AllDigits(s)
  {
    seq(z, _ => '0')
  }

  /** Leading zeros do not change the value of a run of digits. */
  lemma {:induction false} LeadingZerosValue(z: nat, t: string)
    requires AllDigits(t)
    ensures AllDigits(Zeros(z) + t) && DigitsValue(Zeros(z) + t) == DigitsValue(t)
    decreases |t|, z
  {
    var s := Zeros(z) + t;
    if |t| == 0 {
      assert s == Zeros(z);
      if z > 0 {
        assert s[..|s| - 1] == Zeros(z - 1) + t;
        LeadingZerosValue(z - 1, t);
      }
    } else {
      assert s[..|s| - 1] == Zeros(z) + t[..|t| - 1];
      LeadingZerosValue(z, t[..|t| - 1]);
    }
  }

  lemma {:induction false} NatToStringRoundTrip(n: nat)
    ensures DigitsValue(NatToString(n)) == n
    decreases n
  {
    var s := NatToString(n);
    if n < 10 {
      assert s[..|s| - 1] == [];
    } else {
      NatToStringRoundTrip(n / 10);
      assert s[..|s| - 1] == NatToString(n / 10);
    }
  }

  /** Every rendered int reads back as itself. */
  lemma IntToStringRoundTrip(i: int)
    ensures ParseInt(IntToString(i)) == Some(i)
  {
    var s := IntToString(i);
    if i < 0 {
      assert s[1..] == NatToString(-i);
      NatToStringRoundTrip(-i);
    } else {
      NatToStringRoundTrip(i);
    }
  }

  /** Distinct ints render as distinct strings. */
  lemma IntToStringInjective(i: int, j: int)
    requires IntToString(i) == IntToString(j)
    ensures i == j
  {
    IntToStringRoundTrip(i);
    IntToStringRoundTrip(j);
  }
}

=== FILE: envelope.dfy ===
/**
  The envelope a host application receives: its states, error types, JSON
  keys, and how the host reads a delivered JSON object back into a message.
 */
module Envelope {
  import opened Wrappers
  import opened Decimal
  import opened Json

  datatype PluginState = Started | Completed | Error {
    function Name(): string {
      match this
      case Started => "started"
      case Completed => "completed"
      case Error => "error"
    }
  }

  /** The state a name denotes; only the three state names denote one. */
  function StateOfName(name: string): (r: Option<PluginState>)
    ensures r.Some? ==> r.value.Name() == name
    ensures forall s: PluginState :: s.Name() == name ==> r == Some(s)
  {
    if name == "started" then Some(Started)
    else if name == "completed" then Some(Completed)
    else if name == "error" then Some(Error)
    else None
  }

  /** Who reported an error: the vendor SDK (`blinkup`) or the plugin itself (`plugin`). */
  datatype ErrorType = SdkError | PluginError {
    function Name(): string {
      match this
      case SdkError => "blinkup"
      case PluginError => "plugin"
    }
  }

  function ErrorTypeOfName(name: string): (r: Option<ErrorType>)
    ensures r.Some? ==> r.value.Name() == name
    ensures forall t: ErrorType :: t.Name() == name ==> r == Some(t)
  {
    if name == "blinkup" then Some(SdkError)
    else if name == "plugin" then Some(PluginError)
    else None
  }

  const StateKey: string := "state"
  const StatusCodeKey: string := "statusCode"
  const ErrorKey: string := "error"
  const ErrorTypeKey: string := "errorType"
  const ErrorCodeKey: string := "errorCode"
  const ErrorMsgKey: string := "errorMsg"
  const DeviceInfoKey: string := "deviceInfo"
  const DeviceIdKey: string := "deviceId"
  const PlanIdKey: string := "planId"
  const AgentUrlKey: string := "agentURL"
  const VerificationDateKey: string := "verificationDate"

  datatype DeviceInfo = DeviceInfo(deviceId: string, planId: string, agentUrl: string, verificationDate: string)

  /** A delivered envelope as the host understands it. */
  datatype Message =
    | Progress(state: PluginState, statusCode: int, deviceInfo: Option<DeviceInfo>)
    | Failure(errorType: ErrorType, errorCode: int, errorMsg: Option<string>)

  function StringField(fields: map<string, Json>, key: string): Option<string> {
    if key in fields && fields[key].JString? then Some(fields[key].s) else None
  }

  /** A numeric code, sent as its decimal string. */
  function CodeField(fields: map<string, Json>, key: string): Option<int> {
    match StringField(fields, key)
    case Some(t) => ParseInt(t)
    case None => None
  }

  function DecodeDeviceInfo(j: Json): Option<DeviceInfo> {
    match j
    case JString(_) => None
    case JObject(f) =>
      var id := StringField(f, DeviceIdKey);
      var plan := StringField(f, PlanIdKey);
      var url := StringField(f, AgentUrlKey);
      var date := StringField(f, VerificationDateKey);
      if id.Some? && plan.Some? && url.Some? && date.Some?
      then Some(DeviceInfo(id.value, plan.value, url.value, date.value))
      else None
  }

  function DecodeFailure(j: Json): Option<Message> {
    match j
    case JString(_) => None
    case JObject(f) =>
      var name := StringField(f, ErrorTypeKey);
      var code := CodeField(f, ErrorCodeKey);
      if name.Some? && ErrorTypeOfName(name.value).Some? && code.Some?
      then Some(Failure(ErrorTypeOfName(name.value).value, code.value, StringField(f, ErrorMsgKey)))
      else None
  }

  /**
    The host's reading of an envelope: an `error` state carries an `error`
    object, any other state a `statusCode` and possibly a `deviceInfo`.
   */
  function Decode(j: Json): (m: Option<Message>)
    ensures m.Some? ==> j.JObject? && StateKey in j.fields
    ensures m.Some? && m.value.Progress? ==> m.value.state != Error
  {
    match j
    case JString(_) => None
    case JObject(f) =>
      var name := StringField(f, StateKey);
      if name.None? || StateOfName(name.value).None? then None
      else if StateOfName(name.value).value == Error then
        if ErrorKey in f then DecodeFailure(f[ErrorKey]) else None
      else
        var code := CodeField(f, StatusCodeKey);
        if code.None? then None
        else if DeviceInfoKey !in f then Some(Progress(StateOfName(name.value).value, code.value, None))
        else
          var info := DecodeDeviceInfo(f[DeviceInfoKey]);
          if info.None? then None else Some(Progress(StateOfName(name.value).value, code.value, info))
  }
}

=== FILE: json.dfy ===
/**
  The JSON values the plugin builds: strings and objects. An org.json
  JSONObject is modelled as a map from key to value, since member order
  carries no meaning in JSON.
 */
module Json {
  import opened Wrappers

  datatype Json = JString(s: string) | JObject(fields: map<string, Json>)

  /** `JSONObject.put`: a null value removes the key, any other value replaces it. */
  function Put(fields: map<string, Json>, key: string, value: Option<Json>): (r: map<string, Json>)
    ensures value.Some? ==> key in r && r[key] == value.value
    ensures value.None? ==> key !in r
    ensures r.Keys == if value.Some? then fields.Keys + {key} else fields.Keys - {key}
    ensures forall k :: k in r && k != key ==> r[k] == fields[k]
  {
    if value.Some? then fields[key := value.value] else fields - {key}
  }

  /** A Java String that may be null, as a value to put. */
  function OptString(s: Option<string>): (v: Option<Json>)
    ensures v.Some? <==> s.Some?
    ensures s.Some? ==> v.value == JString(s.value)
  {
    match s
    case Some(t) => Some(JString(t))
    case None => None
  }
}

=== FILE: plugin.dfy ===
/**
  The command layer: the state the plugin keeps between calls, the reading
  of the argument array, the API-key check, the dispatch of the three
  actions, and the plan id chosen when the setup UI is presented.
 */
module Plugin {
  import opened Wrappers
  import opened Text
  import opened Decimal
  import opened Codes
  import opened Envelope
  import opened Results

  /** The integers org.json holds as a Java long. */
  type Long = n: int | -0x8000_0000_0000_0000 <= n <= 0x7FFF_FFFF_FFFF_FFFF

  /** An element of the argument array: a string, an integral number held as a long, a boolean or JSON null. */
  datatype Arg = ArgString(s: string) | ArgNumber(n: Long) | ArgBool(b: bool) | ArgNull

  const IntMin: int := -0x8000_0000
  const IntMax: int := 0x7FFF_FFFF

  /** Java's narrowing of a long to an int: the low 32 bits, read as signed. */
  function Wrap32(n: int): (r: int)
    ensures IntMin <= r <= IntMax
    ensures (r - n) % 0x1_0000_0000 == 0
    ensures IntMin <= n <= IntMax ==> r == n
  {
    var m := n % 0x1_0000_0000;
    if m > IntMax then m - 0x1_0000_0000 else m
  }

  /** Java's narrowing of a double holding an integer to an int: out-of-range values clamp. */
  function Saturate32(n: int): (r: int)
    ensures IntMin <= r <= IntMax
    ensures IntMin <= n <= IntMax ==> r == n
    ensures n > IntMax ==> r == IntMax
    ensures n < IntMin ==> r == IntMin
  {
    if n > IntMax then IntMax else if n < IntMin then IntMin else n
  }

  /** An optional sign, then at least one decimal digit. */
  predicate IsIntegralText(t: string) {
    || (|t| > 1 && (t[0] == '+' || t[0] == '-') && AllDigits(t[1..]))
    || (|t| > 0 && AllDigits(t))
  }

  /** The integers `Double.parseDouble` reads from already-trimmed text: an optional sign, then digits. */
  function IntegralText(t: string): (r: Option<int>)
    ensures r.Some? <==> IsIntegralText(t)
  {
    if |t| > 1 && t[0] == '+' && AllDigits(t[1..]) then Some(DigitsValue(t[1..])) else ParseInt(t)
  }

  /** `JSONArray.getString`: any present element, rendered as text. */
  function GetString(data: seq<Arg>, i: nat): (r: Option<string>)
    ensures r.Some? <==> i < |data|
    ensures i < |data| && data[i].ArgString? ==> r == Some(data[i].s)
    ensures i < |data| && data[i].ArgNumber? ==> r == Some(IntToString(data[i].n))
    ensures i < |data| && data[i].ArgBool? ==> r == Some(if data[i].b then "true" else "false")
    ensures i < |data| && data[i].ArgNull? ==> r == Some("null")
  {
    if i >= |data| then None
    else match data[i]
      case ArgString(s) => Some(s)
      case ArgNumber(n) => Some(IntToString(n))
      case ArgBool(b) => Some(if b then "true" else "false")
      case ArgNull => Some("null")
  }

  /** `JSONArray.getInt`: a number narrowed to an int, or a string holding an integer. */
  function GetInt(data: seq<Arg>, i: nat): (r: Option<int>)
    ensures r.Some? ==> IntMin <= r.value <= IntMax
    ensures r.Some? ==> i < |data| && (data[i].ArgNumber? || data[i].ArgString?)
    ensures i < |data| && data[i].ArgNumber? ==> r == Some(Wrap32(data[i].n))
    ensures i < |data| && data[i].ArgString? ==> (r.Some? <==> IsIntegralText(Trim(data[i].s)))
    ensures i < |data| && data[i].ArgString? && r.Some? ==> r.value == Saturate32(IntegralText(Trim(data[i].s)).value)
  {
    if i >= |data| then None
    else match data[i]
      case ArgNumber(n) => Some(Wrap32(n))
      case ArgString(s) =>
        (match IntegralText(Trim(s))
         case Some(n) => Some(Saturate32(n))
         case None => None)
      case _ => None
  }

  /** `JSONArray.getBoolean`: a boolean, or the string `true` or `false` in any case. */
  function GetBoolean(data: seq<Arg>, i: nat): (r: Option<bool>)
    ensures r.Some? ==> i < |data| && (data[i].ArgBool? || data[i].ArgString?)
    ensures i < |data| && data[i].ArgBool? ==> r == Some(data[i].b)
    ensures i < |data| && data[i].ArgString? ==>
      (r.Some? <==> EqualsIgnoreCase("true", data[i].s) || EqualsIgnoreCase("false", data[i].s))
    ensures i < |data| && data[i].ArgString? && r.Some? ==> (r.value <==> EqualsIgnoreCase("true", data[i].s))
  {
    if i >= |data| then None
    else match data[i]
      case ArgBool(b) => Some(b)
      case ArgString(s) =>
        if EqualsIgnoreCase("true", s) then Some(true)
        else if EqualsIgnoreCase("false", s) then Some(false)
        else None
      case _ => None
  }

  /**
    The state kept between calls: the cleared-cache flag, the cached plan
    id, the arguments of the last start command, and every envelope sent
    to the host so far.
   */
  datatype Global = Global(
    clearedCache: bool,
    cachedPlanId: Option<string>,
    timeoutMs: int,
    developerPlanId: Option<string>,
    apiKey: Option<string>,
    generatePlanId: bool,
    outbox: seq<Delivery>)

  /**
    The fields of a fresh plugin instance. The plan id cached by an earlier
    run survives a restart, so a run may start with any cached plan id.
   */
  const Initial: Global := Global(false, None, 30000, None, None, false, [])

  function Emit(g: Global, d: Delivery): (g': Global)
    ensures g'.outbox == g.outbox + [d]
    ensures g' == g.(outbox := g'.outbox)
  {
    g.(outbox := g.outbox + [d])
  }

  function Last(s: seq<Delivery>): Delivery
    requires |s| > 0
  {
    s[|s| - 1]
  }

  /** Every envelope `g'` adds to the outbox of `g` can be read by the host. */
  predicate SendsReadable(g: Global, g': Global) {
    && g.outbox <= g'.outbox
    && forall i :: |g.outbox| <= i < |g'.outbox| ==> Readable(g'.outbox[i])
  }

  /** Sends the plugin error `e` to the host. */
  function SendPluginErrorToCallback(g: Global, e: ErrorCode): (g': Global)
    ensures |g'.outbox| == |g.outbox| + 1 && g'.outbox[..|g.outbox|] == g.outbox
    ensures IsPluginError(Last(g'.outbox), e.Code())
    ensures g' == g.(outbox := g'.outbox)
  {
    Emit(g, SendPluginError(e.Code()))
  }

  /** A key is accepted only if it is non-empty, trims to 32 chars and is alphanumeric throughout. */
  function ApiKeyFormatValid(key: string): (valid: bool)
    ensures valid <==> |key| == 32 && AllAsciiAlnum(key)
  {
    if !AllAsciiAlnum(key) then false
    else
      assert forall k :: 0 <= k < |key| ==> !IsTrimmable(key[k]);
      TrimOfUntrimmable(key);
      |key| != 0 && |Trim(key)| == 32
  }

  const InvokeAction: string := "invokeBlinkUp"
  const AbortAction: string := "abortBlinkUp"
  const ClearAction: string := "clearBlinkUpData"

  /** Work `execute` leaves for the vendor SDK or the UI thread. */
  datatype Effect = NoEffect | CancelPolling | PresentBlinkUpOnUi | ClearDeviceOnUi

  /** The state after `execute`, the boolean it returns, and the work it leaves. */
  datatype ExecResult = ExecResult(g: Global, returned: bool, effect: Effect)

  /** The four arguments of a start command can be read: key, developer plan id, timeout, generate-plan-id flag. */
  predicate ArgsWellTyped(data: seq<Arg>) {
    GetString(data, 0).Some? && GetString(data, 1).Some? && GetInt(data, 2).Some? && GetBoolean(data, 3).Some?
  }

  /** A refused start command: the plugin error `e` is sent and false returned. */
  function Reject(g: Global, e: ErrorCode): (res: ExecResult)
    ensures !res.returned && res.effect == NoEffect
    ensures |res.g.outbox| == |g.outbox| + 1 && res.g.outbox[..|g.outbox|] == g.outbox
    ensures IsPluginError(Last(res.g.outbox), e.Code())
    ensures res.g == g.(outbox := res.g.outbox)
  {
    ExecResult(SendPluginErrorToCallback(g, e), false, NoEffect)
  }

  /**
    A start command. Arguments are stored as they are read, so those read
    before an unreadable one are kept.
   */
  function InvokeBlinkUp(g: Global, data: seq<Arg>): (res: ExecResult)
    ensures !ArgsWellTyped(data) ==>
      && !res.returned && res.effect == NoEffect
      && |res.g.outbox| == |g.outbox| + 1 && res.g.outbox[..|g.outbox|] == g.outbox
      && IsPluginError(Last(res.g.outbox), InvalidArguments.Code())
    ensures ArgsWellTyped(data) ==>
      && res.g.apiKey == GetString(data, 0)
      && res.g.developerPlanId == GetString(data, 1)
      && res.g.timeoutMs == GetInt(data, 2).value
      && res.g.generatePlanId == GetBoolean(data, 3).value
    ensures ArgsWellTyped(data) && !ApiKeyFormatValid(GetString(data, 0).value) ==>
      && !res.returned && res.effect == NoEffect
      && |res.g.outbox| == |g.outbox| + 1 && res.g.outbox[..|g.outbox|] == g.outbox
      && IsPluginError(Last(res.g.outbox), InvalidApiKey.Code())
    ensures ArgsWellTyped(data) && ApiKeyFormatValid(GetString(data, 0).value) ==>
      res.returned && res.effect == PresentBlinkUpOnUi && res.g.outbox == g.outbox
    ensures res.g.clearedCache == g.clearedCache && res.g.cachedPlanId == g.cachedPlanId
  {
    match GetString(data, 0)
    case None => Reject(g, InvalidArguments)
    case Some(key) =>
      var g1 := g.(apiKey := Some(key));
      match GetString(data, 1)
      case None => Reject(g1, InvalidArguments)
      case Some(plan) =>
        var g2 := g1.(developerPlanId := Some(plan));
        match GetInt(data, 2)
        case None => Reject(g2, InvalidArguments)
        case Some(timeout) =>
          var g3 := g2.(timeoutMs := timeout);
          match GetBoolean(data, 3)
          case None => Reject(g3, InvalidArguments)
          case Some(generate) =>
            var g4 := g3.(generatePlanId := generate);
            if !ApiKeyFormatValid(key) then Reject(g4, InvalidApiKey)
            else ExecResult(g4, true, PresentBlinkUpOnUi)
  }

  /** Abort: cancel the SDK's polling and report CANCELLED_BY_USER, whether or not a start is outstanding. */
  function AbortBlinkUp(g: Global): (res: ExecResult)
    ensures res.returned && res.effect == CancelPolling
    ensures |res.g.outbox| == |g.outbox| + 1 && res.g.outbox[..|g.outbox|] == g.outbox
    ensures IsPluginError(Last(res.g.outbox), CancelledByUser.Code())
    ensures res.g == g.(outbox := res.g.outbox)
  {
    ExecResult(SendPluginErrorToCallback(g, CancelledByUser), true, CancelPolling)
  }

  /** Clear: forget the cached plan id, raise the cleared-cache flag, and leave the device clear to the UI thread. */
  function ClearBlinkUpData(g: Global): (res: ExecResult)
    ensures res.returned && res.effect == ClearDeviceOnUi
    ensures res.g.cachedPlanId == None && res.g.clearedCache
    ensures res.g == g.(cachedPlanId := None, clearedCache := true)
  {
    ExecResult(g.(cachedPlanId := None, clearedCache := true), true, ClearDeviceOnUi)
  }

  /** No action name matches two of the three actions, whatever its case. */
  lemma ActionNamesDistinct(action: string)
    ensures !(EqualsIgnoreCase(action, InvokeAction) && EqualsIgnoreCase(action, AbortAction))
    ensures !(EqualsIgnoreCase(action, InvokeAction) && EqualsIgnoreCase(action, ClearAction))
    ensures !(EqualsIgnoreCase(action, AbortAction) && EqualsIgnoreCase(action, ClearAction))
  {
  }

  predicate IsKnownAction(action: string) {
    EqualsIgnoreCase(action, InvokeAction) || EqualsIgnoreCase(action, AbortAction) || EqualsIgnoreCase(action, ClearAction)
  }

  /**
    `execute`: the action is matched ignoring case. At most one envelope is
    sent, and false is returned only for a rejected start command, which
    always sends an error; an unknown action changes nothing.
   */
  function Execute(g: Global, action: string, data: seq<Arg>): (res: ExecResult)
    ensures |g.outbox| <= |res.g.outbox| <= |g.outbox| + 1 && res.g.outbox[..|g.outbox|] == g.outbox
    ensures !res.returned ==>
      && EqualsIgnoreCase(action, InvokeAction)
      && |res.g.outbox| == |g.outbox| + 1
      && (IsPluginError(Last(res.g.outbox), InvalidArguments.Code())
          || IsPluginError(Last(res.g.outbox), InvalidApiKey.Code()))
    ensures !IsKnownAction(action) ==> res == ExecResult(g, true, NoEffect)
    ensures EqualsIgnoreCase(action, InvokeAction) ==> res == InvokeBlinkUp(g, data)
    ensures EqualsIgnoreCase(action, AbortAction) ==> res == AbortBlinkUp(g)
    ensures EqualsIgnoreCase(action, ClearAction) ==> res == ClearBlinkUpData(g)
  {
    ActionNamesDistinct(action);
    if EqualsIgnoreCase(action, InvokeAction) then InvokeBlinkUp(g, data)
    else if EqualsIgnoreCase(action, AbortAction) then AbortBlinkUp(g)
    else if EqualsIgnoreCase(action, ClearAction) then ClearBlinkUpData(g)
    else ExecResult(g, true, NoEffect)
  }

  /** What `presentBlinkUp` gives the SDK's plan id: nothing at all, or a value that may be null. */
  datatype PlanIdSetting = PlanIdLeftToSdk | PlanIdSet(id: Option<string>)

  /** The SDK setup that `presentBlinkUp` starts. */
  datatype SetupRequest = SetupRequest(apiKey: Option<string>, planId: PlanIdSetting)

  /**
    Plan-id selection: when the SDK is to generate the plan id it is not
    set; otherwise a debug build uses the developer plan id and a release
    build the cached one (null when nothing is cached).
   */
  function PresentBlinkUp(g: Global, debug: bool): (req: SetupRequest)
    ensures req.apiKey == g.apiKey
    ensures req.planId == PlanIdLeftToSdk <==> g.generatePlanId
    ensures !g.generatePlanId && debug ==> req.planId == PlanIdSet(g.developerPlanId)
    ensures !g.generatePlanId && !debug ==> req.planId == PlanIdSet(g.cachedPlanId)
  {
    var fromCache := if !g.generatePlanId then PlanIdSet(g.cachedPlanId) else PlanIdLeftToSdk;
    var chosen := if debug && !g.generatePlanId then PlanIdSet(g.developerPlanId) else fromCache;
    SetupRequest(g.apiKey, chosen)
  }

  /** The SDK could not verify the key with its server: VERIFY_API_KEY_FAIL. */
  function OnServerError(g: Global): (g': Global)
    ensures |g'.outbox| == |g.outbox| + 1 && g'.outbox[..|g.outbox|] == g.outbox
    ensures IsPluginError(Last(g'.outbox), VerifyApiKeyFail.Code())
    ensures g' == g.(outbox := g'.outbox)
  {
    SendPluginErrorToCallback(g, VerifyApiKeyFail)
  }

  /** A valid key has exactly 32 chars and nothing to trim. */
  lemma ApiKeyLength(key: string)
    ensures ApiKeyFormatValid(key) ==> |key| == 32 && Trim(key) == key
  {
    if ApiKeyFormatValid(key) {
      TrimOfUntrimmable(key);
    }
  }

  /** After a clear, a release-build start that does not generate a plan id sets it to null. */
  lemma ClearThenStartUsesNoCachedPlanId(g: Global, data: seq<Arg>)
    requires ArgsWellTyped(data) && ApiKeyFormatValid(GetString(data, 0).value)
    requires GetBoolean(data, 3) == Some(false)
    ensures var cleared := Execute(g, ClearAction, []).g;
            var started := Execute(cleared, InvokeAction, data);
            started.effect == PresentBlinkUpOnUi && PresentBlinkUp(started.g, false).planId == PlanIdSet(None)
  {
    EqualsIgnoreCaseReflexive(ClearAction);
    EqualsIgnoreCaseReflexive(InvokeAction);
  }

  /**
    An action name spelt with any of its letters in the other case runs
    that action; for an ASCII name, that is the only way to reach one.
   */
  lemma ExecuteIgnoresCase(g: Global, action: string, data: seq<Arg>)
    ensures AsciiCaseVariant(action, InvokeAction) ==> Execute(g, action, data) == InvokeBlinkUp(g, data)
    ensures AsciiCaseVariant(action, AbortAction) ==> Execute(g, action, data) == AbortBlinkUp(g)
    ensures AsciiCaseVariant(action, ClearAction) ==> Execute(g, action, data) == ClearBlinkUpData(g)
    ensures (forall i :: 0 <= i < |action| ==> IsAscii(action[i])) ==>
      (IsKnownAction(action) <==>
        AsciiCaseVariant(action, InvokeAction) || AsciiCaseVariant(action, AbortAction) || AsciiCaseVariant(action, ClearAction))
  {
    if AsciiCaseVariant(action, InvokeAction) { CaseVariantMatches(action, InvokeAction); }
    if AsciiCaseVariant(action, AbortAction) { CaseVariantMatches(action, AbortAction); }
    if AsciiCaseVariant(action, ClearAction) { CaseVariantMatches(action, ClearAction); }
    if forall i :: 0 <= i < |action| ==> IsAscii(action[i]) {
      AsciiEqualsIgnoreCase(action, InvokeAction);
      AsciiEqualsIgnoreCase(action, AbortAction);
      AsciiEqualsIgnoreCase(action, ClearAction);
    }
  }

  /** The integers sent as decimal text are read back as themselves. */
  lemma IntegralTextRoundTrip(n: int)
    ensures IntegralText(IntToString(n)) == Some(n)
    ensures n >= 0 ==> IntegralText("+" + IntToString(n)) == Some(n)
  {
    IntToStringRoundTrip(n);
    if n >= 0 {
      var t := "+" + IntToString(n);
      assert t[1..] == IntToString(n);
      IntToStringRoundTrip(n);
      assert ParseInt(IntToString(n)) == Some(DigitsValue(IntToString(n)));
    }
  }

  /** A timeout within the int range, sent as its decimal text, is read as itself. */
  lemma GetIntOfDecimalText(n: int)
    requires IntMin <= n <= IntMax
    ensures GetInt([ArgString(IntToString(n))], 0) == Some(n)
  {
    var t := IntToString(n);
    forall k | 0 <= k < |t|
      ensures !IsTrimmable(t[k])
    {
      if n < 0 {
        assert t == "-" + NatToString(-n);
        if k > 0 {
          assert t[k] == NatToString(-n)[k - 1];
        }
      }
    }
    TrimOfUntrimmable(t);
    IntegralTextRoundTrip(n);
  }

  /** The flag `true` is accepted with any of its letters in the other case. */
  lemma GetBooleanAnyCase(s: string)
    requires AsciiCaseVariant("true", s)
    ensures GetBoolean([ArgString(s)], 0) == Some(true)
  {
    CaseVariantMatches("true", s);
  }

  /** Digits with leading zeros, after an optional sign, are read as their value. */
  lemma IntegralTextLeadingZeros(z: nat, n: nat)
    ensures IntegralText(Zeros(z) + NatToString(n)) == Some(n)
    ensures IntegralText("+" + (Zeros(z) + NatToString(n))) == Some(n)
    ensures IntegralText("-" + (Zeros(z) + NatToString(n))) == Some(-(n as int))
  {
    LeadingZerosValue(z, NatToString(n));
    NatToStringRoundTrip(n);
    IntegralTextOfDigits(Zeros(z) + NatToString(n));
  }

  /** A non-empty run of digits, bare or after a sign, is read as its signed value. */
  lemma IntegralTextOfDigits(d: string)
    requires |d| > 0 && AllDigits(d)
    ensures IntegralText(d) == Some(DigitsValue(d))
    ensures IntegralText("+" + d) == Some(DigitsValue(d))
    ensures IntegralText("-" + d) == Some(-(DigitsValue(d) as int))
  {
    var p := "+" + d;
    assert p[0] == '+' && p[1..] == d;
    var m := "-" + d;
    assert m[0] == '-' && m[1..] == d;
  }

  /**
    A timeout sent as decimal text with spaces around it is read as its
    value clamped to the int range, as `(int) Double.parseDouble` does.
   */
  lemma GetIntOfPaddedText(n: int, k1: nat, k2: nat)
    ensures GetInt([ArgString(Spaces(k1) + IntToString(n) + Spaces(k2))], 0) == Some(Saturate32(n))
  {
    var t := IntToString(n);
    assert IsDigit(t[|t| - 1]) by {
      if n < 0 {
        assert t[|t| - 1] == NatToString(-n)[|NatToString(-n)| - 1];
      }
    }
    TrimPadded(k1, k2, t);
    IntegralTextRoundTrip(n);
  }

  /** Text with nothing to trim that reads as an int is read as that int. */
  lemma GetIntOfTrimmedText(s: string, v: int)
    requires Trim(s) == s && IntegralText(s) == Some(v) && IntMin <= v <= IntMax
    ensures GetInt([ArgString(s)], 0) == Some(v)
  {
  }

  /** Digits, bare or after a sign, have nothing to trim. */
  lemma DigitsUntrimmed(sign: string, t: string)
    requires (sign == "" || sign == "+" || sign == "-") && AllDigits(t)
    ensures Trim(sign + t) == sign + t
  {
    var p := sign + t;
    forall k | 0 <= k < |p| ensures !IsTrimmable(p[k]) {
      if k >= |sign| { assert p[k] == t[k - |sign|]; }
    }
    TrimOfUntrimmable(p);
  }

  /** A run of digits sent as a string is read as its value when it fits an int. */
  lemma GetIntOfDigits(d: string)
    requires |d| > 0 && AllDigits(d) && DigitsValue(d) <= IntMax
    ensures GetInt([ArgString(d)], 0) == Some(DigitsValue(d))
  {
    var v := DigitsValue(d);
    assert Trim(d) == d by {
      DigitsUntrimmed("", d);
      assert "" + d == d;
    }
    assert IntegralText(d) == Some(v) by {
      IntegralTextOfDigits(d);
    }
    GetIntOfTrimmedText(d, v);
  }

  /** A run of digits after `+`, sent as a string, is read as its value when it fits an int. */
  lemma GetIntOfPlusDigits(d: string)
    requires |d| > 0 && AllDigits(d) && DigitsValue(d) <= IntMax
    ensures GetInt([ArgString("+" + d)], 0) == Some(DigitsValue(d))
  {
    var v := DigitsValue(d);
    var s := "+" + d;
    assert Trim(s) == s by {
      DigitsUntrimmed("+", d);
    }
    assert IntegralText(s) == Some(v) by {
      IntegralTextOfDigits(d);
    }
    GetIntOfTrimmedText(s, v);
  }

  /** A run of digits after `-`, sent as a string, is read as its negated value when that fits an int. */
  lemma GetIntOfMinusDigits(d: string)
    requires |d| > 0 && AllDigits(d) && DigitsValue(d) <= -IntMin
    ensures GetInt([ArgString("-" + d)], 0) == Some(-(DigitsValue(d) as int))
  {
    var v := -(DigitsValue(d) as int);
    var s := "-" + d;
    assert IntMin <= v <= IntMax;
    assert Trim(s) == s by {
      DigitsUntrimmed("-", d);
    }
    assert IntegralText(s) == Some(v) by {
      IntegralTextOfDigits(d);
    }
    GetIntOfTrimmedText(s, v);
  }

  /** Zero-led digits, bare or after a sign, sent as a string, are read as their signed value when it fits an int. */
  lemma GetIntOfZeroLedText(z: nat, n: nat)
    ensures n <= IntMax ==> GetInt([ArgString(Zeros(z) + NatToString(n))], 0) == Some(n)
    ensures n <= IntMax ==> GetInt([ArgString("+" + (Zeros(z) + NatToString(n)))], 0) == Some(n)
    ensures n <= -IntMin ==> GetInt([ArgString("-" + (Zeros(z) + NatToString(n)))], 0) == Some(-(n as int))
  {
    var t := Zeros(z) + NatToString(n);
    assert AllDigits(t) && DigitsValue(t) == n by {
      LeadingZerosValue(z, NatToString(n));
      NatToStringRoundTrip(n);
    }
    if n <= IntMax {
      assert GetInt([ArgString(t)], 0) == Some(n) by {
        GetIntOfDigits(t);
      }
      assert GetInt([ArgString("+" + t)], 0) == Some(n) by {
        GetIntOfPlusDigits(t);
      }
    }
    if n <= -IntMin {
      assert GetInt([ArgString("-" + t)], 0) == Some(-(n as int)) by {
        GetIntOfMinusDigits(t);
      }
    }
  }

  /** A number, a boolean or JSON null is read as text that is not a well-formed key. */
  lemma NonTextKeyMalformed(data: seq<Arg>)
    requires |data| > 0 && !data[0].ArgString?
    ensures !ApiKeyFormatValid(GetString(data, 0).value)
  {
    if data[0].ArgNumber? {
      var n: int := data[0].n;
      Pow10Of19();
      if n < 0 {
        NatToStringLength(-n, 19);
      } else {
        NatToStringLength(n, 19);
      }
    }
  }

  /**
    A key sent as a number, a boolean or JSON null is read as its text,
    which is never a well-formed key: the start command sends error 300.
   */
  lemma NonTextKeyRejected(g: Global, data: seq<Arg>)
    requires |data| > 0 && !data[0].ArgString?
    ensures ArgsWellTyped(data) ==>
      && !InvokeBlinkUp(g, data).returned
      && IsPluginError(Last(InvokeBlinkUp(g, data).g.outbox), InvalidApiKey.Code())
  {
    NonTextKeyMalformed(data);
  }
}

=== FILE: results.dfy ===
/**
  The result record the plugin fills in for every outcome, its setters and
  its serialisation into the JSON envelope handed to the host's callback.
 */
module Results {
  import opened Wrappers
  import opened Text
  import opened Decimal
  import opened Json
  import opened Codes
  import opened Envelope

  /** Keys of the device-info object the vendor SDK reports on success. */
  const SdkImpeeIdKey: string := "impee_id"
  const SdkPlanIdKey: string := "plan_id"
  const SdkAgentUrlKey: string := "agent_url"
  const SdkClaimedAtKey: string := "claimed_at"

  /**
    One result. A fresh record has no state, no error type, no message and
    no device info; both codes start at 0.
   */
  datatype PluginResult = PluginResult(
    state: Option<PluginState>,
    statusCode: int,
    errorType: Option<ErrorType>,
    errorCode: int,
    errorMsg: Option<string>,
    deviceId: Option<string>,
    planId: Option<string>,
    agentUrl: Option<string>,
    verificationDate: Option<string>,
    hasDeviceInfo: bool)

  const NewResult: PluginResult := PluginResult(None, 0, None, 0, None, None, None, None, None, false)

  /** The Cordova status a result is delivered with. */
  datatype CordovaStatus = StatusOk | StatusError

  /** One message handed to the host's callback. */
  datatype Delivery = Delivery(status: CordovaStatus, message: Json, keepCallback: bool)

  /** Sets the state by name; only the three state names are accepted. */
  function SetState(r: PluginResult, name: string): (r': PluginResult)
    requires StateOfName(name).Some?
    ensures r'.state.Some? && r'.state.value.Name() == name
    ensures r' == r.(state := r'.state)
  {
    r.(state := StateOfName(name))
  }

  /**
    The code is only carried by a non-error envelope: an error envelope is
    unchanged, and a readable progress envelope now reads with `code`.
   */
  function SetStatusCode(r: PluginResult, code: int): (r': PluginResult)
    ensures r'.statusCode == code
    ensures r' == r.(statusCode := code)
    ensures r.state == Some(Error) ==> ResultJson(r') == ResultJson(r)
    ensures Wellformed(r) && r.state != Some(Error) ==>
      && View(r).Progress?
      && Decode(ResultJson(r')) == Some(View(r).(statusCode := code))
  {
    var r' := r.(statusCode := code);
    RoundTrip(r');
    r'
  }

  /**
    Whatever the record held, it now reads as the plugin error `code`; the
    status code, the message and the device info are kept.
   */
  function SetPluginError(r: PluginResult, code: int): (r': PluginResult)
    ensures r'.state == Some(Error) && r'.errorType == Some(PluginError) && r'.errorCode == code
    ensures r' == r.(state := r'.state, errorType := r'.errorType, errorCode := code)
    ensures Decode(ResultJson(r')) == Some(Failure(PluginError, code, None))
  {
    var r' := r.(state := Some(Error), errorType := Some(PluginError), errorCode := code);
    RoundTrip(r');
    r'
  }

  /**
    Whatever the record held, it now reads as an SDK error with the generic
    code 1 and the message `msg`.
   */
  function SetBlinkUpError(r: PluginResult, msg: string): (r': PluginResult)
    ensures r'.state == Some(Error) && r'.errorType == Some(SdkError)
    ensures r'.errorCode == SdkErrorCode && r'.errorMsg == Some(msg)
    ensures r' == r.(state := r'.state, errorType := r'.errorType, errorCode := r'.errorCode, errorMsg := r'.errorMsg)
    ensures Decode(ResultJson(r')) == Some(Failure(SdkError, SdkErrorCode, Some(msg)))
  {
    var r' := r.(state := Some(Error), errorType := Some(SdkError), errorCode := SdkErrorCode, errorMsg := Some(msg));
    RoundTrip(r');
    r'
  }

  predicate HasAllDeviceKeys(info: map<string, string>) {
    SdkImpeeIdKey in info && SdkPlanIdKey in info && SdkAgentUrlKey in info && SdkClaimedAtKey in info
  }

  /** A record after parsing, and the envelopes parsing sent on its own. */
  datatype Parsed = Parsed(result: PluginResult, sent: seq<Delivery>)

  /** A missing key turns the record into a JSON_ERROR plugin error, sent at once. */
  function ParseFailed(r: PluginResult): (p: Parsed)
    ensures p.result.state == Some(Error) && p.result.errorType == Some(PluginError)
    ensures p.result.errorCode == JsonError.Code()
    ensures p.sent == [Send(p.result)]
  {
    var e := SetPluginError(r.(state := Some(Error)), JsonError.Code());
    Parsed(e, [Send(e)])
  }

  /**
    Reads the SDK's device info. The four fields are read in order, so the
    ones before a missing key stay assigned; only when all four are present
    does the record gain device info.
   */
  function SetDeviceInfoFromJson(r: PluginResult, info: map<string, string>): (p: Parsed)
    ensures HasAllDeviceKeys(info) ==>
      && p.sent == []
      && p.result.hasDeviceInfo
      && p.result.deviceId == Some(Trim(info[SdkImpeeIdKey]))
      && p.result.planId == Some(info[SdkPlanIdKey])
      && p.result.agentUrl == Some(info[SdkAgentUrlKey])
      && p.result.verificationDate == Some(ReplaceZ(info[SdkClaimedAtKey]))
      && p.result.state == r.state && p.result.statusCode == r.statusCode
      && p.result.errorType == r.errorType && p.result.errorCode == r.errorCode
    ensures !HasAllDeviceKeys(info) ==>
      && p.result.state == Some(Error) && p.result.errorType == Some(PluginError)
      && p.result.errorCode == JsonError.Code()
      && p.result.hasDeviceInfo == r.hasDeviceInfo && p.result.statusCode == r.statusCode
      && p.sent == [Send(p.result)]
    ensures SdkImpeeIdKey in info ==> p.result.deviceId == Some(Trim(info[SdkImpeeIdKey]))
    ensures Wellformed(r) ==> Wellformed(p.result)
  {
    if SdkImpeeIdKey !in info then ParseFailed(r)
    else
      var r1 := r.(deviceId := Some(Trim(info[SdkImpeeIdKey])));
      if SdkPlanIdKey !in info then ParseFailed(r1)
      else
        var r2 := r1.(planId := Some(info[SdkPlanIdKey]));
        if SdkAgentUrlKey !in info then ParseFailed(r2)
        else
          var r3 := r2.(agentUrl := Some(info[SdkAgentUrlKey]));
          if SdkClaimedAtKey !in info then ParseFailed(r3)
          else Parsed(r3.(verificationDate := Some(ReplaceZ(info[SdkClaimedAtKey])), hasDeviceInfo := true), [])
  }

  /** A failed parse sends its own JSON_ERROR envelope, the same one its result is later sent as. */
  lemma ParseFailureIsJsonError(r: PluginResult, info: map<string, string>)
    requires !HasAllDeviceKeys(info)
    ensures var p := SetDeviceInfoFromJson(r, info);
            p.sent == [Send(p.result)] && IsPluginError(Send(p.result), JsonError.Code())
  {
    PluginErrorRecordSent(SetDeviceInfoFromJson(r, info).result);
  }

  function ErrorJson(r: PluginResult): (e: map<string, Json>)
    ensures r.errorType.Some? ==>
      e.Keys == {ErrorTypeKey, ErrorCodeKey} + (if r.errorType == Some(SdkError) && r.errorMsg.Some? then {ErrorMsgKey} else {})
  {
    var e0 := Put(map[], ErrorTypeKey, OptString(if r.errorType.Some? then Some(r.errorType.value.Name()) else None));
    var e1 := Put(e0, ErrorCodeKey, Some(JString(IntToString(r.errorCode))));
    if r.errorType == Some(SdkError) then Put(e1, ErrorMsgKey, OptString(r.errorMsg)) else e1
  }

  /** The device-info object: one key per field that is set, since `put` drops a null. */
  function DeviceInfoJson(r: PluginResult): (d: map<string, Json>)
    ensures d.Keys ==
      (if r.deviceId.Some? then {DeviceIdKey} else {})
      + (if r.planId.Some? then {PlanIdKey} else {})
      + (if r.agentUrl.Some? then {AgentUrlKey} else {})
      + (if r.verificationDate.Some? then {VerificationDateKey} else {})
  {
    var d0 := Put(map[], DeviceIdKey, OptString(r.deviceId));
    var d1 := Put(d0, PlanIdKey, OptString(r.planId));
    var d2 := Put(d1, AgentUrlKey, OptString(r.agentUrl));
    Put(d2, VerificationDateKey, OptString(r.verificationDate))
  }

  /** The JSON envelope of a record. */
  function ResultJson(r: PluginResult): (j: Json)
    ensures j.JObject?
  {
    var j0 := Put(map[], StateKey, OptString(if r.state.Some? then Some(r.state.value.Name()) else None));
    if r.state == Some(Error) then
      JObject(Put(j0, ErrorKey, Some(JObject(ErrorJson(r)))))
    else
      var j1 := Put(j0, StatusCodeKey, Some(JString(IntToString(r.statusCode))));
      if r.hasDeviceInfo then JObject(Put(j1, DeviceInfoKey, Some(JObject(DeviceInfoJson(r))))) else JObject(j1)
  }

  /**
    The envelope's shape: an error carries only `state` and `error`, never a
    status code, and its `error` object has `errorMsg` only for SDK errors;
    any other state carries `state`, `statusCode` and, when device info was
    parsed, `deviceInfo`.
   */
  lemma EnvelopeKeys(r: PluginResult)
    ensures var f := ResultJson(r).fields;
      && (StateKey in f <==> r.state.Some?)
      && (ErrorKey in f <==> r.state == Some(Error))
      && (StatusCodeKey in f <==> r.state != Some(Error))
      && (DeviceInfoKey in f <==> r.state != Some(Error) && r.hasDeviceInfo)
      && (r.state == Some(Error) ==> f.Keys == {StateKey, ErrorKey})
      && (r.state == Some(Error) && r.errorType.Some? ==>
            && f[ErrorKey].JObject?
            && f[ErrorKey].fields.Keys ==
               {ErrorTypeKey, ErrorCodeKey} + (if r.errorType == Some(SdkError) && r.errorMsg.Some? then {ErrorMsgKey} else {}))
      && (r.state.Some? && r.state != Some(Error) ==>
            f.Keys == {StateKey, StatusCodeKey} + (if r.hasDeviceInfo then {DeviceInfoKey} else {}))
  {
  }

  /** Hands a result to the callback: ERROR status exactly for the error state, and the callback kept open. */
  function Send(r: PluginResult): (d: Delivery)
    ensures d.keepCallback
    ensures d.status == StatusError <==> r.state == Some(Error)
    ensures Decode(d.message).Some? <==> Wellformed(r)
    ensures Wellformed(r) ==> Decode(d.message) == Some(View(r))
  {
    RoundTrip(r);
    Delivery(if r.state == Some(Error) then StatusError else StatusOk, ResultJson(r), true)
  }

  /** A delivery the host reads as the plugin error `code`. */
  predicate IsPluginError(d: Delivery, code: int) {
    d.status == StatusError && d.keepCallback && Decode(d.message) == Some(Failure(PluginError, code, None))
  }

  /** A delivery the host reads as `state` with `code` and no device info. */
  predicate IsProgress(d: Delivery, state: PluginState, code: int) {
    d.status == StatusOk && d.keepCallback && Decode(d.message) == Some(Progress(state, code, None))
  }

  /** The host can read a delivery, and its Cordova status says whether it is an error. */
  predicate Readable(d: Delivery) {
    && d.keepCallback
    && Decode(d.message).Some?
    && (d.status == StatusError <==> Decode(d.message).value.Failure?)
  }

  /** Every well-formed record is sent as a readable delivery. */
  lemma SendReadable(r: PluginResult)
    requires Wellformed(r)
    ensures Readable(Send(r))
  {
  }

  /** A fresh record set to the plugin error `code` and sent. */
  function SendPluginError(code: int): (d: Delivery)
    ensures IsPluginError(d, code)
  {
    Send(SetPluginError(SetState(NewResult, Error.Name()), code))
  }

  /** The records a host can read back: the state is set, an error names its type, and device info is complete. */
  predicate Wellformed(r: PluginResult) {
    && r.state.Some?
    && (r.state.value == Error ==> r.errorType.Some?)
    && (r.state.value != Error && r.hasDeviceInfo ==>
          r.deviceId.Some? && r.planId.Some? && r.agentUrl.Some? && r.verificationDate.Some?)
  }

  /** What a well-formed record means to the host. */
  function View(r: PluginResult): Message
    requires Wellformed(r)
  {
    if r.state.value == Error then
      Failure(r.errorType.value, r.errorCode, if r.errorType.value == SdkError then r.errorMsg else None)
    else
      Progress(r.state.value, r.statusCode,
               if r.hasDeviceInfo
               then Some(DeviceInfo(r.deviceId.value, r.planId.value, r.agentUrl.value, r.verificationDate.value))
               else None)
  }

  lemma ErrorJsonReadsBack(r: PluginResult)
    ensures DecodeFailure(JObject(ErrorJson(r))) ==
      if r.errorType.Some?
      then Some(Failure(r.errorType.value, r.errorCode, if r.errorType.value == SdkError then r.errorMsg else None))
      else None
  {
    IntToStringRoundTrip(r.errorCode);
    var f := ErrorJson(r);
    assert CodeField(f, ErrorCodeKey) == Some(r.errorCode);
    if r.errorType.Some? {
      assert StringField(f, ErrorTypeKey) == Some(r.errorType.value.Name());
      if r.errorType.value == SdkError {
        assert StringField(f, ErrorMsgKey) == r.errorMsg;
      } else {
        assert StringField(f, ErrorMsgKey) == None;
      }
    } else {
      assert StringField(f, ErrorTypeKey) == None;
    }
  }

  lemma DeviceInfoJsonReadsBack(r: PluginResult)
    ensures DecodeDeviceInfo(JObject(DeviceInfoJson(r))) ==
      if r.deviceId.Some? && r.planId.Some? && r.agentUrl.Some? && r.verificationDate.Some?
      then Some(DeviceInfo(r.deviceId.value, r.planId.value, r.agentUrl.value, r.verificationDate.value))
      else None
  {
    var f := DeviceInfoJson(r);
    assert StringField(f, DeviceIdKey) == r.deviceId;
    assert StringField(f, PlanIdKey) == r.planId;
    assert StringField(f, AgentUrlKey) == r.agentUrl;
    assert StringField(f, VerificationDateKey) == r.verificationDate;
  }

  lemma ErrorRoundTrip(r: PluginResult)
    requires r.state == Some(Error)
    ensures Decode(ResultJson(r)).Some? <==> Wellformed(r)
    ensures Wellformed(r) ==> Decode(ResultJson(r)) == Some(View(r))
  {
    var j := ResultJson(r);
    assert StringField(j.fields, StateKey) == Some(Error.Name());
    assert j.fields[ErrorKey] == JObject(ErrorJson(r));
    ErrorJsonReadsBack(r);
  }

  lemma ProgressRoundTrip(r: PluginResult)
    requires r.state.Some? && r.state != Some(Error)
    ensures Decode(ResultJson(r)).Some? <==> Wellformed(r)
    ensures Wellformed(r) ==> Decode(ResultJson(r)) == Some(View(r))
  {
    var j := ResultJson(r);
    assert StringField(j.fields, StateKey) == Some(r.state.value.Name());
    IntToStringRoundTrip(r.statusCode);
    assert CodeField(j.fields, StatusCodeKey) == Some(r.statusCode);
    if r.hasDeviceInfo {
      assert j.fields[DeviceInfoKey] == JObject(DeviceInfoJson(r));
      DeviceInfoJsonReadsBack(r);
    }
  }

  /** The host reads back exactly the well-formed records, and reads each as its meaning. */
  lemma RoundTrip(r: PluginResult)
    ensures Decode(ResultJson(r)).Some? <==> Wellformed(r)
    ensures Wellformed(r) ==> Decode(ResultJson(r)) == Some(View(r))
  {
    if r.state == Some(Error) {
      ErrorRoundTrip(r);
    } else if r.state.Some? {
      ProgressRoundTrip(r);
    } else {
      assert StringField(ResultJson(r).fields, StateKey) == None;
    }
  }

  /** Any record in the error state with the plugin type is sent as that plugin error. */
  lemma PluginErrorRecordSent(r: PluginResult)
    requires r.state == Some(Error) && r.errorType == Some(PluginError)
    ensures IsPluginError(Send(r), r.errorCode)
  {
    assert Wellformed(r);
    assert View(r) == Failure(PluginError, r.errorCode, None);
  }
}

=== FILE: text.dfy ===
/**
  The few java.lang.String and android.text.TextUtils operations the plugin
  relies on: trimming, replacing `Z` in a date, case-insensitive comparison
  and the alphanumeric test of an API key.
 */
module Text {

  /** `String.trim` and `TextUtils.getTrimmedLength` drop every char at or below U+0020. */
  predicate IsTrimmable(c: char) {
    c <= ' '
  }

  /** Drops the leading trimmable chars: the result is the suffix that starts at the first other char. */
  function TrimStart(s: string): (r: string)
    ensures |r| <= |s| && r == s[|s| - |r|..]
    ensures forall k :: 0 <= k < |s| - |r| ==> IsTrimmable(s[k])
    ensures |r| > 0 ==> !IsTrimmable(r[0])
    decreases |s|
  {
    if |s| > 0 && IsTrimmable(s[0]) then TrimStart(s[1..]) else s
  }

  /** Drops the trailing trimmable chars: the result is the prefix that ends at the last other char. */
  function TrimEnd(s: string): (r: string)
    ensures |r| <= |s| && r == s[..|r|]
    ensures forall k :: |r| <= k < |s| ==> IsTrimmable(s[k])
    ensures |r| > 0 ==> !IsTrimmable(r[|r| - 1])
    decreases |s|
  {
    if |s| > 0 && IsTrimmable(s[|s| - 1]) then TrimEnd(s[..|s| - 1]) else s
  }

  /** How many leading chars trimming drops. */
  function LeadingTrimmed(s: string): nat {
    |s| - |TrimStart(s)|
  }

  /**
    Java's `String.trim`: the infix of `s` left once the leading and the
    trailing trimmable chars are dropped.
   */
  function Trim(s: string): (r: string)
    ensures |r| <= |s|
    ensures LeadingTrimmed(s) + |r| <= |s|
    ensures r == s[LeadingTrimmed(s)..LeadingTrimmed(s) + |r|]
    ensures forall k :: 0 <= k < LeadingTrimmed(s) ==> IsTrimmable(s[k])
    ensures forall k :: LeadingTrimmed(s) + |r| <= k < |s| ==> IsTrimmable(s[k])
    ensures |r| > 0 ==> !IsTrimmable(r[0]) && !IsTrimmable(r[|r| - 1])
  {
    var t := TrimStart(s);
    var r := TrimEnd(t);
    TrimInfix(s, t, r);
    r
  }

  lemma TrimInfix(s: string, t: string, r: string)
    requires |t| <= |s| && t == s[|s| - |t|..]
    requires |r| <= |t| && r == t[..|r|]
    requires forall k :: |r| <= k < |t| ==> IsTrimmable(t[k])
    ensures var a := |s| - |t|;
            && a + |r| <= |s|
            && r == s[a..a + |r|]
            && forall k :: a + |r| <= k < |s| ==> IsTrimmable(s[k])
  {
    var a := |s| - |t|;
    forall k | a + |r| <= k < |s|
      ensures IsTrimmable(s[k])
    {
      assert s[k] == t[k - a];
    }
  }

  /** A string with no trimmable char anywhere is its own trim. */
  lemma TrimOfUntrimmable(s: string)
    requires forall k :: 0 <= k < |s| ==> !IsTrimmable(s[k])
    ensures Trim(s) == s
  {
    assert TrimStart(s) == s;
  }

  /** `k` spaces. */
  function Spaces(k: nat): (s: string)
    ensures |s| == k
  {
    seq(k, _ => ' ')
  }

  lemma {:induction false} TrimStartSpaces(k: nat, u: string)
    ensures TrimStart(Spaces(k) + u) == TrimStart(u)
    decreases k
  {
    if k > 0 {
      assert (Spaces(k) + u)[1..] == Spaces(k - 1) + u;
      TrimStartSpaces(k - 1, u);
    } else {
      assert Spaces(k) + u == u;
    }
  }

  lemma {:induction false} TrimEndSpaces(k: nat, u: string)
    ensures TrimEnd(u + Spaces(k)) == TrimEnd(u)
    decreases k
  {
    if k > 0 {
      var s := u + Spaces(k);
      assert s[..|s| - 1] == u + Spaces(k - 1);
      TrimEndSpaces(k - 1, u);
    } else {
      assert u + Spaces(k) == u;
    }
  }

  /** Spaces around text with untrimmable ends are exactly what trimming removes. */
  lemma TrimPadded(k1: nat, k2: nat, t: string)
    requires |t| > 0 && !IsTrimmable(t[0]) && !IsTrimmable(t[|t| - 1])
    ensures Trim(Spaces(k1) + t + Spaces(k2)) == t
  {
    var u := t + Spaces(k2);
    assert Spaces(k1) + t + Spaces(k2) == Spaces(k1) + u;
    TrimStartSpaces(k1, u);
    assert TrimStart(u) == u;
    TrimEndSpaces(k2, t);
    assert TrimEnd(t) == t;
  }

  /** Trimming twice is trimming once. */
  lemma TrimIdempotent(s: string)
    ensures Trim(Trim(s)) == Trim(s)
  {
    var t := Trim(s);
    assert TrimStart(t) == t;
    assert TrimEnd(t) == t;
  }

  predicate IsAsciiAlnum(c: char) {
    'a' <= c <= 'z' || 'A' <= c <= 'Z' || '0' <= c <= '9'
  }

  /** The regular expression `^[a-zA-Z0-9]*$` matched against the whole string. */
  predicate AllAsciiAlnum(s: string) {
    forall i :: 0 <= i < |s| ==> IsAsciiAlnum(s[i])
  }

  /**
    Java's case folding `toLowerCase(toUpperCase(c))`, exact wherever the
    result is ASCII: ASCII letters fold to lower case, and the only non-ASCII
    chars that fold into ASCII are dotted and dotless I (to `i`), long s (to
    `s`) and the Kelvin sign (to `k`). Every other char is kept as it is,
    which never equals the fold of an ASCII char.
   */
  function FoldCase(c: char): (f: char)
    ensures 'A' <= c <= 'Z' ==> f as int == c as int + 32
    ensures c <= '\U{7F}' && !('A' <= c <= 'Z') ==> f == c
    ensures c > '\U{7F}' ==> (IsAscii(f) <==> c == '\U{130}' || c == '\U{131}' || c == '\U{17F}' || c == '\U{212A}')
    ensures c == '\U{130}' || c == '\U{131}' ==> f == 'i'
    ensures c == '\U{17F}' ==> f == 's'
    ensures c == '\U{212A}' ==> f == 'k'
    ensures IsAsciiAlnum(c) ==> IsAsciiAlnum(f)
    ensures 'a' <= f <= 'z' ==> c == f || 'A' <= c <= 'Z' || c > '\U{7F}'
  {
    if 'A' <= c <= 'Z' then ((c as int) - ('A' as int) + ('a' as int)) as char
    else if c == '\U{130}' || c == '\U{131}' then 'i'
    else if c == '\U{17F}' then 's'
    else if c == '\U{212A}' then 'k'
    else c
  }

  /** Java's `String.equalsIgnoreCase`, exact when one side is ASCII. */
  predicate EqualsIgnoreCase(a: string, b: string) {
    |a| == |b| && forall i :: 0 <= i < |a| ==> FoldCase(a[i]) == FoldCase(b[i])
  }

  lemma EqualsIgnoreCaseReflexive(a: string)
    ensures EqualsIgnoreCase(a, a)
  {
  }

  predicate IsAscii(c: char) {
    c <= '\U{7F}'
  }

  /** The same ASCII char, or the same ASCII letter in the other case. */
  predicate SameUpToAsciiCase(x: char, y: char) {
    || x == y
    || ('A' <= x <= 'Z' && y as int == x as int + 32)
    || ('A' <= y <= 'Z' && x as int == y as int + 32)
  }

  /** `b` spells `a` with some ASCII letters in the other case. */
  predicate AsciiCaseVariant(a: string, b: string) {
    |a| == |b| && forall i :: 0 <= i < |a| ==> SameUpToAsciiCase(a[i], b[i])
  }

  /**
    Between ASCII strings, the comparison ignoring case holds exactly when
    one spells the other with some letters in the other case.
   */
  lemma AsciiEqualsIgnoreCase(a: string, b: string)
    requires forall i :: 0 <= i < |a| ==> IsAscii(a[i])
    requires forall i :: 0 <= i < |b| ==> IsAscii(b[i])
    ensures EqualsIgnoreCase(a, b) <==> AsciiCaseVariant(a, b)
  {
    if EqualsIgnoreCase(a, b) {
      forall i | 0 <= i < |a|
        ensures SameUpToAsciiCase(a[i], b[i])
      {
        FoldAsciiSame(a[i], b[i]);
      }
    }
    if AsciiCaseVariant(a, b) {
      forall i | 0 <= i < |a|
        ensures FoldCase(a[i]) == FoldCase(b[i])
      {
        VariantFoldsSame(a[i], b[i]);
      }
    }
  }

  /** A case variant of any string, ASCII or not, matches it ignoring case. */
  lemma CaseVariantMatches(a: string, b: string)
    requires AsciiCaseVariant(a, b)
    ensures EqualsIgnoreCase(a, b)
  {
    forall i | 0 <= i < |a|
      ensures FoldCase(a[i]) == FoldCase(b[i])
    {
      VariantFoldsSame(a[i], b[i]);
    }
  }

  lemma FoldAsciiSame(x: char, y: char)
    requires IsAscii(x) && IsAscii(y) && FoldCase(x) == FoldCase(y)
    ensures SameUpToAsciiCase(x, y)
  {
  }

  lemma VariantFoldsSame(x: char, y: char)
    requires SameUpToAsciiCase(x, y)
    ensures FoldCase(x) == FoldCase(y)
  {
  }

  /** The offset the date of a claimed device is rewritten to, matching the iOS format. */
  const UtcOffset: string := "+0:00"

  /** Java's `s.replace("Z", "+0:00")`: every `Z` is replaced, left to right. */
  function ReplaceZ(s: string): (r: string)
    ensures 'Z' !in r
    ensures 'Z' !in s ==> r == s
    ensures |r| >= |s|
  {
    if |s| == 0 then ""
    else (if s[0] == 'Z' then UtcOffset else [s[0]]) + ReplaceZ(s[1..])
  }

  /** The rewrite of a char followed by a string. */
  lemma ReplaceZCons(c: char, t: string)
    ensures ReplaceZ([c] + t) == (if c == 'Z' then UtcOffset else [c]) + ReplaceZ(t)
  {
    assert ([c] + t)[1..] == t;
  }

  lemma AppendAssociative<T>(x: seq<T>, y: seq<T>, z: seq<T>)
    ensures x + (y + z) == (x + y) + z
  {
  }

  /** Replacing distributes over concatenation. */
  lemma {:induction false} ReplaceZAppend(a: string, b: string)
    ensures ReplaceZ(a + b) == ReplaceZ(a) + ReplaceZ(b)
    decreases |a|
  {
    if |a| > 0 {
      var head := if a[0] == 'Z' then UtcOffset else [a[0]];
      var t := a[1..];
      assert a == [a[0]] + t;
      assert a + b == [a[0]] + (t + b);
      ReplaceZCons(a[0], t + b);
      ReplaceZCons(a[0], t);
      ReplaceZAppend(t, b);
      AppendAssociative(head, ReplaceZ(t), ReplaceZ(b));
    } else {
      assert a + b == b;
    }
  }

  /** A date that ends in `Z` ends in `+0:00` once rewritten. */
  lemma ReplaceZTrailing(p: string)
    ensures ReplaceZ(p + "Z") == ReplaceZ(p) + UtcOffset
  {
    ReplaceZAppend(p, "Z");
  }

  /** The rewrite is idempotent. */
  lemma ReplaceZIdempotent(s: string)
    ensures ReplaceZ(ReplaceZ(s)) == ReplaceZ(s)
  {
  }
}

=== FILE: wrappers.dfy ===
/** The optional value used for every Java reference that may be null. */
module Wrappers {

  datatype Option<+T> = None | Some(value: T)
}
